=== FILE: README.md ===
# cloud-story-be, modelled in Dafny

cloud-story-be is the Spring Boot back end of a small photo-story site:
- users register, verify their email with a six-character code, log in with a JWT, and edit or delete their account;
- they write posts with numbered photos, comment on posts, and like or dislike both posts and comments;
- popular posts are ranked per day and per week.

This project models the logic of that back end and proves what it promises.

- **Services.** `PostService` and `CommentService` keep the reaction bookkeeping.
  - The relational store is a `Database` class. It has one field per table.
  - Reaction tables are sets of `(target id, user id)` rows.
  - Posts and comments carry Java `int` counters.
  - Each service method is a Dafny method with a `modifies` frame.
  - Each such method keeps the invariant "every counter equals the number of its rows, as a Java `int`".
  - `UserService` holds the user table, the pending email verifications and a mail recorder. It builds the `UPDATE` statement step by step.
- **Ranking.** The popularity ranking is a stable insertion sort. It is proved to be a permutation, in non-increasing score order, with ties kept in input order.
- **Security rules.** The `SecurityConfig` rule table is an ordered first-match list. The JWT filter is a method over given token and user-lookup functions.
- **Controllers.** `PostController`, `CommentController` and `UserController` map service answers and exceptions to status codes and bodies.
- **Files and codes.**
  - `FileController` picks a content type through a fallback chain.
  - `VerificationCodeGenerator` turns six random draws into a code.

Modules: `Wrappers`, `JavaLang` (common.dfy), `Entities`, `Repositories`, `PostService`, `PopularPosts`, `CommentService`, `UserService`, `Http`, `PostController`, `CommentController`, `UserController`, `SecurityConfig`, `JwtTokenFilter`, `FileController`, `VerificationCodeGenerator`.

## Model

| member | source | states |
|---|---|---|
| Repositories.HoldersInsert | src/main/java/com/example/cloud_story_be/entity/PostLike.java:11 | Inserting a new (target, user) row adds exactly one holder to that target and changes no other target's holders. |
| Repositories.HoldersRemove | src/main/java/com/example/cloud_story_be/entity/PostLike.java:11 | Deleting an existing row removes exactly one holder from its target and changes no other target's holders. |
| Repositories.PostLikesMoved | src/main/java/com/example/cloud_story_be/service/PostService.java:95-102 | If one post's like rows change by d and no other post's do, moving that post's `likeCount` by d (with `int` wrap-around) keeps every post counter equal to its row count. |
| Repositories.PostDislikesMoved | src/main/java/com/example/cloud_story_be/service/PostService.java:119-148 | The same for dislike rows and `dislikeCount`; the like counters are untouched. |
| Repositories.CommentLikesMoved | src/main/java/com/example/cloud_story_be/service/CommentService.java:84-113 | The same for a comment's like rows and `likeCount`. |
| Repositories.CommentDislikesMoved | src/main/java/com/example/cloud_story_be/service/CommentService.java:115-144 | The same for a comment's dislike rows and `dislikeCount`. |
| Repositories.CountersExact | src/main/java/com/example/cloud_story_be/entity/Post.java:38-41 | While a post has fewer than 2^31 rows of a kind, its counters equal the row counts exactly, so they are never negative. |
| Repositories.CommentAdded | src/main/java/com/example/cloud_story_be/service/CommentService.java:45-48 | Storing a comment under a new id and raising its own post's `commentCount` by one keeps every post's comment count equal to its number of comments. |
| Repositories.CommentRemoved | src/main/java/com/example/cloud_story_be/service/CommentService.java:62-66 | Deleting a comment and lowering its own post's `commentCount` by one keeps every comment count equal to its number of comments. |
| Repositories.CommentStored | src/main/java/com/example/cloud_story_be/entity/Comment.java:40-44 | A new comment starts with zero counters; when no reaction row names its id, the comment counters still match their rows. |
| Repositories.FindUserById | src/main/java/com/example/cloud_story_be/service/PostService.java:93 | A user is found exactly when a row with that id exists, and the user found is that row. |
| Repositories.Database.constructor | src/main/java/com/example/cloud_story_be/entity/Post.java:38-47 | The empty database satisfies every bookkeeping invariant. |
| PostService.BuildPhotos | src/main/java/com/example/cloud_story_be/service/PostService.java:58-67 | Photo i of the result is `/uploads/<file i>` with `photoOrder` i + 1: one photo per file, in upload order. |
| PostService.PostService.CreatePost | src/main/java/com/example/cloud_story_be/service/PostService.java:44-72 | An unknown author throws "User not found" with nothing stored. Otherwise a post with zero counters and numbered photos is stored under a fresh id, and the invariants hold. |
| PostService.PostService.GetPostById | src/main/java/com/example/cloud_story_be/service/PostService.java:74-80 | A missing post gives empty with nothing changed. An existing one is returned with `viewCount` raised by one; no other post or table changes. |
| PostService.PostService.LikePost | src/main/java/com/example/cloud_story_be/service/PostService.java:87-103 | A duplicate gives false with nothing changed. A missing post or user throws with nothing changed. Otherwise exactly one like row is added, `likeCount` rises by one, nothing else changes, and the counters still match the rows. |
| PostService.PostService.UnlikePost | src/main/java/com/example/cloud_story_be/service/PostService.java:106-116 | An absent like gives false with nothing changed. Otherwise the row is deleted and `likeCount` falls by one, or the call throws when the post is gone and nothing changes. The counters still match. |
| PostService.PostService.DislikePost | src/main/java/com/example/cloud_story_be/service/PostService.java:119-135 | As `LikePost`, on the dislike table and `dislikeCount`; the frame excludes the like table. |
| PostService.PostService.UndislikePost | src/main/java/com/example/cloud_story_be/service/PostService.java:138-148 | As `UnlikePost`, on the dislike table and `dislikeCount`; the like table is outside its frame. |
| PostService.PostService.UpdatePost | src/main/java/com/example/cloud_story_be/service/PostService.java:173-200 | A missing post or a non-author throws with nothing changed. Otherwise title and content are replaced. Photos are renumbered from the new files only when a non-empty list is given, and kept otherwise. No other post changes. |
| PostService.PostService.DeletePost | src/main/java/com/example/cloud_story_be/service/PostService.java:202-210 | A missing post throws "Post not found" and a non-author "Unauthorized", both with nothing changed; the author's post is removed and no other post changes. |
| PopularPosts.ScoreStepwise | src/main/java/com/example/cloud_story_be/service/PostService.java:169-171 | Evaluating `view + like * 2 - dislike` one wrapping `int` operation at a time gives the same value as the wrapped whole expression. |
| PopularPosts.WeightedOrder | src/main/java/com/example/cloud_story_be/service/PostService.java:163-171 | With a positive weight, ordering by weighted score is ordering by integer score. |
| PopularPosts.Insert | src/main/java/com/example/cloud_story_be/service/PostService.java:163-167 | One step of the sort: the result holds the list's posts plus the inserted one (as a multiset). |
| PopularPosts.InsertDescending | src/main/java/com/example/cloud_story_be/service/PostService.java:163-167 | Inserting into a list in non-increasing score order keeps it in that order. |
| PopularPosts.InsertStable | src/main/java/com/example/cloud_story_be/service/PostService.java:163-167 | For every score k, the posts with score k after the insertion are the inserted post (if it has score k) followed by the list's posts with score k, in their old order. |
| PopularPosts.InsertStableBehind | src/main/java/com/example/cloud_story_be/service/PostService.java:163-167 | The step of `InsertStable` where the inserted post ranks below the head and goes behind it. |
| PopularPosts.InsertStableAll | src/main/java/com/example/cloud_story_be/service/PostService.java:163-167 | `InsertStable` for all scores at once. |
| PopularPosts.Rank | src/main/java/com/example/cloud_story_be/service/PostService.java:163-167 | The result is a permutation of the input. With a positive weight it is in non-increasing score order, and posts with equal scores keep their input order. Empty input gives empty output. |
| PopularPosts.TodayPopular | src/main/java/com/example/cloud_story_be/service/PostService.java:150-154 | The day's posts, permuted into non-increasing score order with ties in repository order. |
| PopularPosts.WeekPopular | src/main/java/com/example/cloud_story_be/service/PostService.java:157-161 | The week's posts, permuted into non-increasing score order with ties in repository order. |
| PopularPosts.RankIgnoresWeight | src/main/java/com/example/cloud_story_be/service/PostService.java:153-160 | Any positive weight gives the same ranking as weight 1; the two periods differ only in which posts they rank. |
| PopularPosts.InsertIgnoresWeight | src/main/java/com/example/cloud_story_be/service/PostService.java:163-171 | Any positive weight places the inserted post where weight 1 does. |
| CommentService.DecrementCommentCount | src/main/java/com/example/cloud_story_be/service/CommentService.java:65 | The named post's `commentCount` falls by one (as an `int`); every other post and the set of post ids are unchanged. |
| CommentService.DeleteCommentAsWrittenBreaksCount | src/main/java/com/example/cloud_story_be/service/CommentService.java:54-69 | Deleting comment 10 of post 1 through a request that names post 2 turns matching comment counts into non-matching ones. |
| CommentService.CommentService.AddComment | src/main/java/com/example/cloud_story_be/service/CommentService.java:33-51 | A missing post or user throws before any change. Otherwise one comment with zero counters is stored under a fresh id, the post's `commentCount` rises by one, and every post's count still equals its number of comments. |
| CommentService.CommentService.DeleteComment | src/main/java/com/example/cloud_story_be/service/CommentService.java:54-69 | A missing comment or post throws, and a non-author gets "Unauthorized access"; nothing changes in either case. The comment is removed only when it belongs to the named post, together with lowering that post's `commentCount`. The comment counts stay exact. |
| CommentService.CommentService.DeleteCommentAsWritten | src/main/java/com/example/cloud_story_be/service/CommentService.java:54-69 | The code as written: the owner's comment is removed and the `commentCount` of the post named by the argument falls by one, whichever post the comment was on. Only the reaction invariants are kept. |
| CommentService.CommentService.UpdateComment | src/main/java/com/example/cloud_story_be/service/CommentService.java:71-82 | A missing comment or a non-author throws with the content unchanged; the author's comment gets the new content and nothing else changes. |
| CommentService.CommentService.LikeComment | src/main/java/com/example/cloud_story_be/service/CommentService.java:84-100 | A duplicate gives false with nothing changed. A missing comment or user throws. Otherwise one like row is added and `likeCount` rises by one, with the counters still matching. |
| CommentService.CommentService.UnlikeComment | src/main/java/com/example/cloud_story_be/service/CommentService.java:103-113 | An absent like gives false with nothing changed. Otherwise the row is deleted and `likeCount` falls by one, with the counters still matching. |
| CommentService.CommentService.DislikeComment | src/main/java/com/example/cloud_story_be/service/CommentService.java:115-131 | As `LikeComment`, on the dislike table and `dislikeCount`; the like table is outside its frame. |
| CommentService.CommentService.UndislikeComment | src/main/java/com/example/cloud_story_be/service/CommentService.java:134-144 | As `UnlikeComment`, on the dislike table and `dislikeCount`. |
| UserService.WithEmail | src/main/java/com/example/cloud_story_be/service/UserService.java:60 | The rows selected by `WHERE email = ?` are exactly the users with that email. |
| UserService.WithNickname | src/main/java/com/example/cloud_story_be/service/UserService.java:66 | The rows selected by `WHERE nickname = ?` are exactly the users with that nickname. |
| UserService.AtMostOneWithEmail | src/main/java/com/example/cloud_story_be/entity/User.java:21 | Under the unique constraints at most one row has a given email. |
| UserService.AtMostOneWithNickname | src/main/java/com/example/cloud_story_be/entity/User.java:27 | Under the unique constraints at most one row has a given nickname. |
| UserService.UniqueTail | src/main/java/com/example/cloud_story_be/entity/User.java:21-27 | The unique constraints hold on the rest of the table, and no later row shares the first row's email or nickname. |
| UserService.ExistsByEmail | src/main/java/com/example/cloud_story_be/service/UserService.java:59-63 | True exactly when some user has the email. |
| UserService.ExistsByNickname | src/main/java/com/example/cloud_story_be/service/UserService.java:65-69 | True exactly when some user has the nickname. |
| UserService.FindByEmail | src/main/java/com/example/cloud_story_be/service/UserService.java:39-47 | A user found has that email. Under the unique constraints a user is found exactly when the email exists; any failed lookup gives empty. |
| UserService.FindByNickname | src/main/java/com/example/cloud_story_be/service/UserService.java:49-57 | A user found has that nickname. Under the unique constraints a user is found exactly when the nickname exists. |
| UserService.BuildUpdateSql | src/main/java/com/example/cloud_story_be/service/UserService.java:116-126 | The statement is the fixed head, then the nickname, encoded-password and image assignments in that order, each only for a present field, then ` WHERE id = ?`. The statement sets nothing but `updated_at` exactly when no field is present. |
| UserService.UpdatedUser | src/main/java/com/example/cloud_story_be/service/UserService.java:116-127 | The updated row keeps its id and email. It takes the nickname, the encoded password and `/uploads/<file>` exactly for the fields present, and keeps the rest; with no field present the row is unchanged. |
| UserService.UpdateWhereId | src/main/java/com/example/cloud_story_be/service/UserService.java:127 | Only rows with the given id are updated; every other row is unchanged, and every row keeps its position, id and email. |
| UserService.DeleteWhereId | src/main/java/com/example/cloud_story_be/service/UserService.java:135-136 | The remaining rows are exactly those whose id differs. |
| UserService.Mailer.SendVerificationCode | src/main/java/com/example/cloud_story_be/service/UserService.java:95 | Records one (address, code) message. |
| UserService.UserService.SaveUser | src/main/java/com/example/cloud_story_be/service/UserService.java:71-82 | A taken email or nickname violates a unique constraint and stores nothing. Otherwise one row is appended with the encoded password and `/uploads/<file>` as image URL when an image was stored, and the email then finds that row. |
| UserService.UserService.SendVerificationCode | src/main/java/com/example/cloud_story_be/service/UserService.java:84-97 | True exactly when the email is not registered. On false nothing is stored or sent. On true the email's verification is replaced by one fresh, unverified, well-formed code, and that same code is mailed to the address. |
| UserService.UserService.VerifyEmail | src/main/java/com/example/cloud_story_be/service/UserService.java:140-151 | True exactly when an (email, code) row exists, which then becomes verified; on false nothing changes. |
| UserService.UserService.UpdateUser | src/main/java/com/example/cloud_story_be/service/UserService.java:114-130 | The statement is `BuildUpdateSql` with the password encoded only when present. It throws (nothing changed) exactly when another user holds the new nickname. Otherwise the table becomes `UpdateWhereId`, and the result is true exactly when the id exists. |
| UserService.UserService.DeleteUser | src/main/java/com/example/cloud_story_be/service/UserService.java:133-138 | True exactly when a row with the id existed; the table becomes `DeleteWhereId`, with the unique constraints kept. |
| UserService.DeletePreservesUnique | src/main/java/com/example/cloud_story_be/service/UserService.java:133-138 | Deleting rows keeps the unique constraints. |
| UserService.UpdateMissingIdIsNoop | src/main/java/com/example/cloud_story_be/service/UserService.java:127-129 | An update of an id no row has leaves the table unchanged. |
| UserService.UpdatePreservesUnique | src/main/java/com/example/cloud_story_be/service/UserService.java:114-130 | An update that takes no other user's nickname keeps the unique constraints and every id. |
| UserService.InsertKeepsUnique | src/main/java/com/example/cloud_story_be/service/UserService.java:78-81 | Inserting a user with a free email, a free nickname and a new id keeps the unique constraints, and the email then finds exactly that user. |
| Http.StripBearer | src/main/java/com/example/cloud_story_be/controller/PostController.java:36 | Succeeds exactly when the header has at least 7 characters, and the header is then those 7 characters followed by the result. A shorter header throws the index exception. |
| Http.StripBearerInverse | src/main/java/com/example/cloud_story_be/controller/PostController.java:36 | Any 7-character prefix followed by a token gives back the token. |
| Http.UserIdFromToken | src/main/java/com/example/cloud_story_be/controller/PostController.java:35-38 | An id comes back exactly when the prefix cut and the token parse succeed and the email names a user; the id is that user's. An unknown email throws "User not found". |
| Http.PageIndex | src/main/java/com/example/cloud_story_be/controller/PostController.java:69 | `page - 1` as a Java `int`: one less, except that the `int` minimum wraps to the maximum. |
| Http.PageRequestOf | src/main/java/com/example/cloud_story_be/controller/PostController.java:69 | Accepted exactly when the index is at least 0 and the size at least 1. Each rejection has its own message. |
| Http.PageCount | src/main/java/com/example/cloud_story_be/controller/PostController.java:74 | The number of pages is the least c with n <= c * size. |
| Http.PageOf | src/main/java/com/example/cloud_story_be/controller/PostController.java:70-76 | The page holds at most `size` items, namely the items from `index * size` on, and reports its index and the totals. |
| Http.PagesCover | src/main/java/com/example/cloud_story_be/controller/PostController.java:70-76 | The pages from k on, concatenated, are exactly the items from `k * size` on: paging loses nothing and repeats nothing. |
| Http.PageNumberRoundTrip | src/main/java/com/example/cloud_story_be/controller/PostController.java:69-73 | `PageRequest.of` accepts page p exactly when p >= 1 (or p is the `int` minimum) and the limit is at least 1, and its page reports p back as `currentPage`. For the `int` minimum the offset fits an `int` only with limit 1, so any larger limit is refused by the repository. |
| PostController.RuntimeFailure | src/main/java/com/example/cloud_story_be/controller/PostController.java:135-140 | A `RuntimeException` gives 400 with its message; any other exception gives the framework's 500. |
| PostController.DispatchInverse | src/main/java/com/example/cloud_story_be/controller/PostController.java:116-120 | Each (isLike, isAdd) pair reaches one operation, and each operation is reached by exactly one pair. |
| PostController.RoutesReachTheirOperation | src/main/java/com/example/cloud_story_be/controller/PostController.java:92-110 | POST and DELETE on `/like` reach like and unlike; on `/dislike` they reach dislike and undislike. |
| PostController.HandleLikeOrDislike | src/main/java/com/example/cloud_story_be/controller/PostController.java:112-141 | True gives 200 and false gives 409, each with the message of the dispatched operation. A `RuntimeException` from the token or the service gives 400 with its message. |
| PostController.OnlyDispatchedOperationMatters | src/main/java/com/example/cloud_story_be/controller/PostController.java:116-120 | The response depends only on the answer of the one dispatched service operation. |
| PostController.ReactionStatusIff | src/main/java/com/example/cloud_story_be/controller/PostController.java:122-140 | 200 exactly for true, 409 exactly for false, 400 exactly for a runtime exception. |
| PostController.CreatePost | src/main/java/com/example/cloud_story_be/controller/PostController.java:40-64 | 201 with the new id exactly when the caller and the service succeed. An `IOException` gives 500 and a `RuntimeException` 400 with its message. |
| PostController.GetAllPosts | src/main/java/com/example/cloud_story_be/controller/PostController.java:66-78 | 200 exactly when page and limit are acceptable and the offset `(page - 1) * limit` fits an `int`, and otherwise the framework's 500. The body reports `currentPage` = page, the totals, and the page's slice of the posts. |
| PostController.GetPostById | src/main/java/com/example/cloud_story_be/controller/PostController.java:80-90 | 200 with the post exactly when it exists, else 404 "Post not found". |
| PostController.PopularPostsResponse | src/main/java/com/example/cloud_story_be/controller/PostController.java:143-173 | 200 exactly when the repository answers. The body is then the same posts in non-increasing score order with ties in repository order. Any exception gives 500 with the period's message. |
| PostController.UpdatePost | src/main/java/com/example/cloud_story_be/controller/PostController.java:175-206 | True gives 200 and false 404. An `IOException` gives 500 and a `RuntimeException` 400 with its message. |
| PostController.DeletePost | src/main/java/com/example/cloud_story_be/controller/PostController.java:208-230 | True gives 200 and false 409. A `RuntimeException` gives 400 with its message. |
| CommentController.BlankIff | src/main/java/com/example/cloud_story_be/controller/CommentController.java:41 | Content is blank exactly when it is null or every character is at most U+0020, which is what `trim().isEmpty()` tests. |
| CommentController.CaughtFailure | src/main/java/com/example/cloud_story_be/controller/CommentController.java:57-66 | A `RuntimeException` gives 400 with its message; any other exception gives 500 with the handler's own message. |
| CommentController.Then | src/main/java/com/example/cloud_story_be/controller/CommentController.java:32-35 | The caller lookup's failure, or else the service's answer for that caller. |
| CommentController.AddComment | src/main/java/com/example/cloud_story_be/controller/CommentController.java:37-68 | Blank content gives 400 "Content cannot be empty" without a service call. Otherwise 201 with the new id exactly when the caller and the service succeed, and failures as caught. |
| CommentController.DeleteComment | src/main/java/com/example/cloud_story_be/controller/CommentController.java:70-99 | True gives 200 and false 404 "Comment not found"; failures are mapped as caught. |
| CommentController.UpdateComment | src/main/java/com/example/cloud_story_be/controller/CommentController.java:101-132 | Blank content gives 400 without a service call; otherwise 200 exactly when the service returns, and failures as caught. |
| CommentController.React | src/main/java/com/example/cloud_story_be/controller/CommentController.java:134-236 | For each of the four reaction endpoints: 200 exactly for true, 409 exactly for false, 400 exactly for a `RuntimeException` (with its message), and 500 for anything else. |
| CommentController.DirectionFromString | src/main/java/com/example/cloud_story_be/controller/CommentController.java:245 | Asc or Desc exactly when the value upper-cased is ASC or DESC; otherwise an `IllegalArgumentException` quoting the value. |
| CommentController.DirectionCaseInsensitive | src/main/java/com/example/cloud_story_be/controller/CommentController.java:245 | A value and its upper-cased form are accepted alike and give the same direction. |
| CommentController.DirectionNameRoundTrip | src/main/java/com/example/cloud_story_be/controller/CommentController.java:245 | Each direction's name parses back to it. |
| CommentController.SortBy | src/main/java/com/example/cloud_story_be/controller/CommentController.java:245 | A sort is built exactly when the direction parses and the property has a non-whitespace character. |
| CommentController.GetCommentsByPostId | src/main/java/com/example/cloud_story_be/controller/CommentController.java:238-255 | 200 exactly when the sort and the page request succeed, the offset fits an `int`, and the query succeeds; otherwise the framework's 500. The body reports `currentPage` = page, the totals, and the page's slice. |
| UserController.Register | src/main/java/com/example/cloud_story_be/controller/UserController.java:32-48 | Unparsable JSON gives 400 "Invalid user data" with nothing changed. A form without email, password or nickname, or with a taken email or nickname, gives the framework's 500 with nothing changed. Otherwise 200 carries the new id, and exactly one row is appended: the new id, the email, the encoded password, the nickname, and `/uploads/<file>` when an image was uploaded (else the request's URL); the email finds that row. |
| UserController.FindByEmailField | src/main/java/com/example/cloud_story_be/service/UserService.java:39-47 | An absent email finds nobody (SQL `NULL` equals no row); a present one is looked up as `findByEmail`, and a user found carries that email. |
| UserController.LoginAsWritten | src/main/java/com/example/cloud_story_be/controller/UserController.java:50-72 | The code as written: the response is 500 exactly when the email names a user and either the password is missing (`matches(null, …)` throws) or it matches and the user has no profile image. |
| UserController.LoginAsWrittenRejectsUserWithoutImage | src/main/java/com/example/cloud_story_be/controller/UserController.java:59-66 | A registered user without an image, giving the right password, gets 500. |
| UserController.Login | src/main/java/com/example/cloud_story_be/controller/UserController.java:50-72 | 200 with a token and the user's fields exactly when the user exists and a given password matches. A missing password for a registered email gives 500. Every other failure (absent or unknown email, wrong password) gives the same 401 body. |
| UserController.LoginAgreesWhereWrittenSucceeds | src/main/java/com/example/cloud_story_be/controller/UserController.java:50-72 | Wherever the written login does not fail with 500, the corrected one gives the same response. |
| UserController.CheckEmail | src/main/java/com/example/cloud_story_be/controller/UserController.java:74-88 | 409 exactly when the email is registered, and then nothing is stored or sent. Otherwise 200: an unverified six-character code replaces the email's pending verification, every other pending verification is kept, and the same code is mailed to the address. |
| UserController.CheckNickname | src/main/java/com/example/cloud_story_be/controller/UserController.java:90-103 | 409 with available=false exactly when the nickname is taken, else 200 with available=true. |
| UserController.VerifyEmail | src/main/java/com/example/cloud_story_be/controller/UserController.java:105-121 | 200 exactly when the (email, code) pair matches, and the verification is then verified. Otherwise 400 with nothing changed. |
| UserController.Caller | src/main/java/com/example/cloud_story_be/controller/UserController.java:127-128 | Returns exactly when the prefix cut and the token parse succeed; the user is then `findByEmail` of the parsed email. |
| UserController.MergeUpdates | src/main/java/com/example/cloud_story_be/controller/UserController.java:140-145 | Nickname and password are replaced only by fields the request carries; id, email and image are kept. |
| UserController.ServiceArgumentsAsWritten | src/main/java/com/example/cloud_story_be/controller/UserController.java:147 | The code as written passes the merged user's nickname and password, so without a new password the stored hash is passed. |
| UserController.UpdateAsWrittenReencodesPassword | src/main/java/com/example/cloud_story_be/controller/UserController.java:143-147 | With a matching stored hash and no new password, the update stores a hash that no longer matches the user's password. |
| UserController.ServiceArguments | src/main/java/com/example/cloud_story_be/controller/UserController.java:147 | The corrected arguments pass the merged nickname and only the request's own password. |
| UserController.UpdateKeepsPasswordUnlessGiven | src/main/java/com/example/cloud_story_be/controller/UserController.java:140-147 | With the corrected arguments the stored password changes only to the encoding of a supplied, non-empty password; otherwise it is kept. |
| UserController.UpdateUser | src/main/java/com/example/cloud_story_be/controller/UserController.java:123-163 | The handler with the corrected service arguments of the Findings row (line 147 as written passes the stored hash instead). An unknown caller gives 404 and unparsable JSON 400, both with nothing changed. A failure cutting or parsing the token gives 500 with nothing changed. A known caller with parsable JSON gets 200 exactly when no other user holds the merged nickname; otherwise 500 with nothing changed. On 200 the caller's row is updated with the merged nickname and only a supplied password. |
| UserController.DeleteUser | src/main/java/com/example/cloud_story_be/controller/UserController.java:165-188 | An unknown caller gives 404 with nothing changed. Otherwise the caller's row is deleted and 200 reports it. |
| UserController.FoundUserHasId | src/main/java/com/example/cloud_story_be/controller/UserController.java:170-172 | A user found by email is found again by its id. |
| SecurityConfig.DecideFirstMatch | src/main/java/com/example/cloud_story_be/config/SecurityConfig.java:37-44 | The first rule with a matching pattern decides, and a path no rule matches needs authentication. |
| SecurityConfig.NonMatchingRuleRedundant | src/main/java/com/example/cloud_story_be/config/SecurityConfig.java:37-44 | Dropping a rule that does not match a path changes nothing for that path. |
| SecurityConfig.ShadowedRuleRedundant | src/main/java/com/example/cloud_story_be/config/SecurityConfig.java:37-44 | A rule whose patterns repeat an earlier rule's never decides; dropping it changes no outcome. |
| SecurityConfig.DuplicateFilesRuleRedundant | src/main/java/com/example/cloud_story_be/config/SecurityConfig.java:41-42 | The repeated `/api/files/**` rule changes no outcome. |
| SecurityConfig.AccessTable | src/main/java/com/example/cloud_story_be/config/SecurityConfig.java:39-43 | The table rule by rule: the public user paths, then posts authenticated, then files public, then the authenticated default. |
| SecurityConfig.FirstRuleIff | src/main/java/com/example/cloud_story_be/config/SecurityConfig.java:39 | The first rule matches exactly the five public user endpoints and the `/api/users/images` subtree. |
| SecurityConfig.PublicIff | src/main/java/com/example/cloud_story_be/config/SecurityConfig.java:37-44 | A path is public exactly when it is one of the five public user endpoints or lies under `/api/users/images` or `/api/files`. |
| SecurityConfig.NotUnderBoth | src/main/java/com/example/cloud_story_be/config/SecurityConfig.java:39-42 | Paths under two prefixes that differ at some position cannot coincide. |
| SecurityConfig.PublicUserEndpoints | src/main/java/com/example/cloud_story_be/config/SecurityConfig.java:39 | The five public user endpoints need no authentication. |
| SecurityConfig.PostsAuthenticated | src/main/java/com/example/cloud_story_be/config/SecurityConfig.java:40 | Every path under `/api/posts`, including the popular and comment routes, needs authentication. |
| SecurityConfig.UpdateAuthenticated | src/main/java/com/example/cloud_story_be/config/SecurityConfig.java:43 | `/api/users/update` falls through to the authenticated default. |
| SecurityConfig.DeleteAuthenticated | src/main/java/com/example/cloud_story_be/config/SecurityConfig.java:43 | `/api/users/delete` falls through to the authenticated default. |
| JwtTokenFilter.LookupName | src/main/java/com/example/cloud_story_be/security/JwtTokenFilter.java:36-38 | A username is looked up exactly when a token is resolved, validates to true and yields a username, all without throwing. |
| JwtTokenFilter.Installed | src/main/java/com/example/cloud_story_be/security/JwtTokenFilter.java:41-45 | An authentication is installed exactly when the lookup happens and returns a user. It is then built from that user, its authorities and the request's address. |
| JwtTokenFilter.SecurityContext.SetAuthentication | src/main/java/com/example/cloud_story_be/security/JwtTokenFilter.java:45 | The context holds the given authentication. |
| JwtTokenFilter.UserDetailsService.LoadUserByUsername | src/main/java/com/example/cloud_story_be/security/JwtTokenFilter.java:41 | Answers from the user directory and records the lookup. |
| JwtTokenFilter.FilterChain.DoFilter | src/main/java/com/example/cloud_story_be/security/JwtTokenFilter.java:57 | Records the request as passed on. |
| JwtTokenFilter.JwtTokenFilter.DoFilterInternal | src/main/java/com/example/cloud_story_be/security/JwtTokenFilter.java:33-58 | The chain sees the request exactly once on every path, exceptions included. The user lookup happens only for a valid token. The context changes only on the all-good path, and then holds the user loaded for the token's subject. No failure of the authentication step propagates; the chain's own exceptions are not modelled. |
| FileController.FilenameExtension | src/main/java/com/example/cloud_story_be/controller/FileController.java:119-122 | An extension exists exactly when the name has a `.` with no `/` after it. The extension is the text after the last `.`, and contains no `.` or `/`. |
| FileController.FilenameExtensionOf | src/main/java/com/example/cloud_story_be/controller/FileController.java:119 | `base + "." + ext` has extension `ext` whenever `ext` holds no `.` or `/`. |
| FileController.ContentTypeByFileExtension | src/main/java/com/example/cloud_story_be/controller/FileController.java:118-137 | Null without an extension. Otherwise the table entry of the lower-cased extension: png, jpg/jpeg, gif or txt, and null for anything else. |
| FileController.ContentTypeOfName | src/main/java/com/example/cloud_story_be/controller/FileController.java:118-137 | `base.ext` gets the entry of `ext` in lower case, whatever the base. |
| FileController.FirstNonEmpty | src/main/java/com/example/cloud_story_be/controller/FileController.java:110-115 | With a non-empty fallback the result is never empty. |
| FileController.FirstNonEmptyIsFirst | src/main/java/com/example/cloud_story_be/controller/FileController.java:86-115 | The result is the first candidate that is neither null nor empty, or the fallback when there is none. |
| FileController.FirstOfThree | src/main/java/com/example/cloud_story_be/controller/FileController.java:98-113 | The three-candidate chain spelled out as nested choices. |
| FileController.DetermineContentType | src/main/java/com/example/cloud_story_be/controller/FileController.java:86-116 | The first non-empty answer of the probe (a failed probe counts as none), the servlet MIME lookup and the extension table, else `application/octet-stream`. Never empty. |
| FileController.DownloadFile | src/main/java/com/example/cloud_story_be/controller/FileController.java:58-84 | A missing file gives 404 and a malformed URL 500, both without a body. Otherwise 200 serves the file inline under its own name with the determined content type. |
| VerificationCodeGenerator.AlphabetIsCodeChars | src/main/java/com/example/cloud_story_be/util/VerificationCodeGenerator.java:6 | The alphabet has 36 characters, all in A-Z0-9. |
| VerificationCodeGenerator.GenerateCode | src/main/java/com/example/cloud_story_be/util/VerificationCodeGenerator.java:10-16 | The code has exactly 6 characters. Character i is the alphabet character at the i-th draw, so every character is in A-Z0-9. |

## Left out

- **Time.** Clocks and calendars: the `createdAt`/`updatedAt`/`verifiedAt` timestamps, and the start-of-day and start-of-week cutoffs of the popular-post queries. The model takes the period's posts as given.
- **Cryptography.** JWT signing, parsing and expiry are given functions. BCrypt is a deterministic `encode`/`matches` pair, so salting is not modelled.
- **Other I/O.** Given as values or recorded:
  - File storage (`storeFile`, `getFilePath`) and `UrlResource`.
  - `Files.probeContentType` and `ServletContext.getMimeType`.
  - Mail delivery: the mailer records messages and never fails.
- **`uploadFile`.** It only stores a file and builds a URI, so it is not modelled.
- **Logging.**
- **Concurrency.** Each service method is one atomic step.
- **Framework wiring.** CORS, session policy, filter registration and the `AuthenticationManager` bean.
- **JSON parsing.** `ObjectMapper` parsing is a given outcome. Absent fields are modelled for the registration form, the login request and the update form (`Option` fields). Every request field the model takes as a plain string is assumed present.
- UserController.CheckEmail: the email is a plain string. A request without one would reach the insert into `email_verification` with a null email, which the model does not capture.
- **Integer widths.** Ids are unbounded integers; Java `long` overflow of ids is not modelled. The `int` counters, scores and page numbers do wrap.
- **Scores.** The `double` weights are `real`. Only their sign matters for the order, which `RankIgnoresWeight` proves.
- **Driver messages.** A unique-constraint violation throws a fixed `DUPLICATE_KEY` message, not the driver's text.
- **Exception wording.** The index exception of `substring(7)` uses the JDK 17 wording.
- **Unreachable 500 in `createPost` and `updatePost`.** `FileStorageService.storeFile` declares no checked exception: `UserService` calls it without `throws IOException`. So the `IOException` branches of `PostController.createPost` and `PostController.updatePost` are modelled but unreachable. A storage failure is a `RuntimeException`, which rolls the transaction back and gives 400.
- **Unreachable 404 in `updatePost`.** `PostService.updatePost` never returns false; it throws instead. So the 404 branch of `PostController.updatePost` is modelled but unreachable from the service model.
- **Query functions.** `CommentService.getCommentsByPostId` and `PostService.getAllPosts` are plain repository queries.
  - The query function given to `CommentController.GetCommentsByPostId` stands for the first.
  - The post sequence given to `PostController.GetAllPosts`, in repository order, stands for the second.
- UserService.UserService.UpdateUser: quotes inside a nickname or an encoded password are not escaped. The model treats each assignment as the column value, so it does not capture what an injected statement does in the database.
- FileController.DownloadFile: `MediaType.parseMediaType` could reject a malformed probe or servlet answer, and that failure is not modelled.
- FileController.ContentTypeByFileExtension: `toLowerCase()` uses the default locale. The model lower-cases with the locale-independent mappings, as in a non-Turkish locale.
- PostService.PostService.DeletePost: comments, reaction rows and photos that reference the post are left as they are. The foreign keys and cascades that decide their fate in the database are not modelled.
- UserService.UserService.DeleteUser: the posts, comments and reactions of a deleted user are left as they are, for the same reason.
- CommentService.CommentService.DeleteComment: a deleted comment's like and dislike rows are left as they are. `CommentLike` and `CommentDislike` hold a non-null reference to the comment and `Comment` declares no cascade, so the database would likely refuse the delete, roll back, and the controller would answer 400. The model does not capture that refusal; it deletes the comment and returns true.
- CommentService.CommentService.DeleteCommentAsWritten: the same for the as-written delete.
- UserService.UserService.SaveUser: the `orElseThrow` after the insert is not modelled as a failure path. The inserted email always finds its row under the unique constraints (`InsertKeepsUnique`).

## Findings

| source | as written | input that shows it | evidently intended | confidence | as-written member | corrected member |
|---|---|---|---|---|---|---|
| src/main/java/com/example/cloud_story_be/service/CommentService.java:54-69 | `deleteComment` lowers the `commentCount` of the post named in the request, without checking that the comment belongs to it | comment 10 on post 1, a delete request naming post 2: post 2's count goes to -1, and post 1's stays 1 with no comments left | only a comment of the named post is deleted, so the counter lowered is that of the comment's own post | not executed | CommentService.CommentService.DeleteCommentAsWritten, CommentService.DeleteCommentAsWrittenBreaksCount | CommentService.CommentService.DeleteComment |
| src/main/java/com/example/cloud_story_be/controller/UserController.java:59-66 | the login body is built with `Map.of`, which throws `NullPointerException` on the null `profileImageUrl` of a user registered without an image | user `a@example.com` with no image logging in with the right password gets 500 | such a user logs in (200), with a null image URL in the body | not executed | UserController.LoginAsWritten, UserController.LoginAsWrittenRejectsUserWithoutImage | UserController.Login, UserController.LoginAgreesWhereWrittenSucceeds |
| src/main/java/com/example/cloud_story_be/controller/UserController.java:143-147 | `updateUser` passes the merged user's password to the service, which encodes it: without a new password, the stored hash is encoded again | a user whose stored hash matches "pw" updates only the nickname; afterwards "pw" no longer matches | the password changes only when the request supplies one | not executed | UserController.ServiceArgumentsAsWritten, UserController.UpdateAsWrittenReencodesPassword | UserController.ServiceArguments, UserController.UpdateKeepsPasswordUnlessGiven, UserController.UpdateUser |

=== FILE: comment_controller.dfy ===
/** `CommentController`: content validation, and how each comment endpoint turns the caller's
    identity and the service's answer into a status code and a JSON body. The controller keeps
    no state; the service's answer is a value, or a function of the user id the handler passes. */
module CommentController {
  import opened Wrappers
  import opened JavaLang
  import opened Entities
  import opened Http

  datatype Body =
    | Message(success: bool, message: string)
    | Created(commentId: int, message: string)
    | CommentPage(currentPage: int, totalPages: int, totalComments: int, comments: seq<Comment>)
    | ServerError

  const CONTENT_EMPTY: string := "Content cannot be empty"
  const ADDED: string := "Comment added successfully"
  const ADD_FAILED: string := "Server error while adding the comment"
  const DELETED: string := "Comment deleted successfully"
  const NOT_FOUND: string := "Comment not found"
  const DELETE_FAILED: string := "Server error while deleting the comment"
  const UPDATED: string := "Comment updated successfully"
  const UPDATE_FAILED: string := "Server error while updating the comment"

  /** `content == null || content.trim().isEmpty()`. */
  predicate Blank(content: Option<string>)
  {
    content.None? || Trim(content.value) == ""
  }

  /** Content is rejected exactly when it is missing or every character is at most U+0020. */
  lemma BlankIff(content: Option<string>)
    ensures Blank(content) <==> content.None? || forall i :: 0 <= i < |content.value| ==> content.value[i] <= ' '
  {
    if content.Some? {
      TrimEmptyIffBlank(content.value);
    }
  }

  /** The handlers with two catch clauses: a `RuntimeException` gives 400 with its message, any
      other exception 500 with the handler's own message. */
  function CaughtFailure(f: Failure, serverMessage: string): (r: Response<Body>)
    ensures f.RuntimeException? ==> r == Response(400, Message(false, f.message))
    ensures f.CheckedException? ==> r == Response(500, Message(false, serverMessage))
  {
    match f
    case RuntimeException(m) => Response(400, Message(false, m))
    case CheckedException(_) => Response(500, Message(false, serverMessage))
  }

  /** The outcome of "look up the caller, then call the service": the first failure, or the
      service's answer. */
  function Then<T>(userId: Attempt<int>, service: int -> Attempt<T>): (r: Attempt<T>)
    ensures userId.Threw? ==> r == Threw(userId.failure)
    ensures userId.Returned? ==> r == service(userId.value)
  {
    match userId
    case Threw(f) => Threw(f)
    case Returned(uid) => service(uid)
  }

  /** `addComment`: blank content gives 400 before the caller is even looked up; otherwise 201
      with the new comment's id, or the caught failure. */
  function AddComment(content: Option<string>, userId: Attempt<int>, add: int -> Attempt<Comment>)
    : (r: Response<Body>)
    ensures Blank(content) ==> r == Response(400, Message(false, CONTENT_EMPTY))
    ensures r.status == 201 <==> !Blank(content) && Then(userId, add).Returned?
    ensures r.status == 201 ==> r.body == Created(Then(userId, add).value.id, ADDED)
    ensures !Blank(content) && Then(userId, add).Threw? ==> r == CaughtFailure(Then(userId, add).failure, ADD_FAILED)
  {
    if Blank(content) then Response(400, Message(false, CONTENT_EMPTY))
    else
      match Then(userId, add)
      case Returned(comment) => Response(201, Created(comment.id, ADDED))
      case Threw(f) => CaughtFailure(f, ADD_FAILED)
  }

  /** `deleteComment`: true gives 200, false 404 "Comment not found", failures as caught. */
  function DeleteComment(userId: Attempt<int>, delete: int -> Attempt<bool>): (r: Response<Body>)
    ensures r.status == 200 <==> Then(userId, delete) == Returned(true)
    ensures r.status == 200 ==> r.body == Message(true, DELETED)
    ensures Then(userId, delete) == Returned(false) ==> r == Response(404, Message(false, NOT_FOUND))
    ensures Then(userId, delete).Threw? ==> r == CaughtFailure(Then(userId, delete).failure, DELETE_FAILED)
  {
    match Then(userId, delete)
    case Returned(true) => Response(200, Message(true, DELETED))
    case Returned(false) => Response(404, Message(false, NOT_FOUND))
    case Threw(f) => CaughtFailure(f, DELETE_FAILED)
  }

  /** `updateComment`: blank content gives 400 unseen by the service; otherwise 200 once the
      service returns, failures as caught. */
  function UpdateComment(content: Option<string>, userId: Attempt<int>, update: int -> Attempt<Comment>)
    : (r: Response<Body>)
    ensures Blank(content) ==> r == Response(400, Message(false, CONTENT_EMPTY))
    ensures r.status == 200 <==> !Blank(content) && Then(userId, update).Returned?
    ensures r.status == 200 ==> r.body == Message(true, UPDATED)
    ensures !Blank(content) && Then(userId, update).Threw? ==> r == CaughtFailure(Then(userId, update).failure, UPDATE_FAILED)
  {
    if Blank(content) then Response(400, Message(false, CONTENT_EMPTY))
    else
      match Then(userId, update)
      case Returned(_) => Response(200, Message(true, UPDATED))
      case Threw(f) => CaughtFailure(f, UPDATE_FAILED)
  }

  /** The four comment reaction endpoints. */
  datatype ReactionOp = Like | Unlike | Dislike | Undislike

  function SuccessMessage(op: ReactionOp): (r: string)
  {
    match op
    case Like => "Comment liked successfully"
    case Unlike => "Comment like removed successfully"
    case Dislike => "Comment disliked successfully"
    case Undislike => "Comment dislike removed successfully"
  }

  function ConflictMessage(op: ReactionOp): (r: string)
  {
    match op
    case Like => "Comment already liked by user"
    case Unlike => "Comment not liked by user"
    case Dislike => "Comment already disliked by user"
    case Undislike => "Comment not disliked by user"
  }

  /** `likeComment`, `unlikeComment`, `dislikeComment`, `undislikeComment`: true gives 200 and
      false 409 with the endpoint's messages; a `RuntimeException` gives 400 with its message and
      nothing else is caught. */
  function React(op: ReactionOp, userId: Attempt<int>, service: int -> Attempt<bool>): (r: Response<Body>)
    ensures r.status == 200 <==> Then(userId, service) == Returned(true)
    ensures r.status == 409 <==> Then(userId, service) == Returned(false)
    ensures r.status == 400 <==> Then(userId, service).Threw? && Then(userId, service).failure.RuntimeException?
    ensures r.status == 200 ==> r.body == Message(true, SuccessMessage(op))
    ensures r.status == 409 ==> r.body == Message(false, ConflictMessage(op))
    ensures r.status == 400 ==> r.body == Message(false, Then(userId, service).failure.message)
    ensures Then(userId, service).Threw? && Then(userId, service).failure.CheckedException? ==> r == Response(500, ServerError)
  {
    match Then(userId, service)
    case Returned(true) => Response(200, Message(true, SuccessMessage(op)))
    case Returned(false) => Response(409, Message(false, ConflictMessage(op)))
    case Threw(RuntimeException(m)) => Response(400, Message(false, m))
    case Threw(CheckedException(_)) => Response(500, ServerError)
  }

  /** `Sort.Direction`. */
  datatype Direction = Asc | Desc

  /** The message `fromString` throws with, quoting the rejected value. */
  function InvalidDirection(value: string): (r: string)
  {
    "Invalid value '" + value + "' for orders given; Has to be either 'desc' or 'asc' (case insensitive)"
  }

  const PROPERTY_EMPTY: string := "Property must not be null or empty"

  /** `Sort.Direction.fromString`: `valueOf` of the value upper-cased in `Locale.US`; any other
      value is an `IllegalArgumentException`. */
  function DirectionFromString(value: string): (r: Attempt<Direction>)
    ensures r == Returned(Asc) <==> Upper(value) == "ASC"
    ensures r == Returned(Desc) <==> Upper(value) == "DESC"
    ensures r.Threw? ==> r == Threw(RuntimeException(InvalidDirection(value)))
  {
    var name := Upper(value);
    if name == "ASC" then Returned(Asc)
    else if name == "DESC" then Returned(Desc)
    else Threw(RuntimeException(InvalidDirection(value)))
  }

  function DirectionName(d: Direction): (r: string)
  {
    match d
    case Asc => "asc"
    case Desc => "desc"
  }

  /** Upper-casing is idempotent, so the parse ignores case: a value and its upper-cased form
      are accepted alike and name the same direction. */
  lemma DirectionCaseInsensitive(value: string)
    ensures DirectionFromString(Upper(value)).Returned? <==> DirectionFromString(value).Returned?
    ensures DirectionFromString(value).Returned? ==> DirectionFromString(Upper(value)) == DirectionFromString(value)
  {
    UpperIdempotent(value);
  }

  /** Each direction's name parses back to it. */
  lemma DirectionNameRoundTrip(d: Direction)
    ensures DirectionFromString(DirectionName(d)) == Returned(d)
  {
    var name := DirectionName(d);
    var u := Upper(name);
    assert u[0] == UpperChar(name[0]);
    if d == Asc {
      assert u == "ASC";
    } else {
      assert u == "DESC";
    }
  }

  /** `Character.isWhitespace`. */
  predicate IsWhitespace(c: char)
  {
    c == ' ' || '\t' <= c <= '\r' || '\U{001C}' <= c <= '\U{001F}' ||
    c == '\U{1680}' || '\U{2000}' <= c <= '\U{2006}' || '\U{2008}' <= c <= '\U{200A}' ||
    c == '\U{2028}' || c == '\U{2029}' || c == '\U{205F}' || c == '\U{3000}'
  }

  /** `StringUtils.hasText`. */
  predicate HasText(s: string)
  {
    exists i :: 0 <= i < |s| && !IsWhitespace(s[i])
  }

  datatype SortOrder = SortOrder(direction: Direction, property: string)

  /** `Sort.by(direction, property)`: a property without text is an `IllegalArgumentException`. */
  function SortBy(direction: string, property: string): (r: Attempt<SortOrder>)
    ensures r.Returned? <==> DirectionFromString(direction).Returned? && HasText(property)
    ensures r.Returned? ==> r.value == SortOrder(DirectionFromString(direction).value, property)
  {
    match DirectionFromString(direction)
    case Threw(f) => Threw(f)
    case Returned(d) =>
      if HasText(property) then Returned(SortOrder(d, property))
      else Threw(RuntimeException(PROPERTY_EMPTY))
  }

  /** `getCommentsByPostId`: build the sort, then the page request, then ask the repository;
      `query(order)` is the post's comments in that order, or the exception the repository
      throws for a property `Comment` lacks; an offset that does not fit an `int` is refused
      as well. The handler catches nothing, so every failure is the framework's 500. */
  function GetCommentsByPostId(page: int, limit: int, sort: string, direction: string,
                               query: SortOrder -> Attempt<seq<Comment>>): (r: Response<Body>)
    requires IsInt(page)
    ensures r.status == 200 <==>
              && SortBy(direction, sort).Returned?
              && (page >= 1 || page == INT_MIN) && limit >= 1
              && OffsetFits(PageRequest(PageIndex(page), limit))
              && query(SortBy(direction, sort).value).Returned?
    ensures r.status != 200 ==> r == Response(500, ServerError)
    ensures r.status == 200 ==>
              var comments := query(SortBy(direction, sort).value).value;
              && r.body.CommentPage?
              && r.body.currentPage == page
              && r.body.totalComments == |comments|
              && r.body.totalPages == PageCount(|comments|, limit)
              && r.body.comments == PageOf(comments, PageRequest(PageIndex(page), limit)).content
  {
    PageNumberRoundTrip<Comment>([], page, limit);
    match SortBy(direction, sort)
    case Threw(_) => Response(500, ServerError)
    case Returned(order) =>
      match PageRequestOf(PageIndex(page), limit)
      case Threw(_) => Response(500, ServerError)
      case Returned(request) =>
        if !OffsetFits(request) then Response(500, ServerError)
        else
          match query(order)
          case Threw(_) => Response(500, ServerError)
          case Returned(comments) =>
            PageNumberRoundTrip(comments, page, limit);
            var p := PageOf(comments, request);
            Response(200, CommentPage(CurrentPage(p), p.totalPages, p.totalElements, p.content))
  }
}

=== FILE: comment_service.dfy ===
/** `CommentService`: comments on posts, their reactions, and the post's comment counter.
    Each public operation is one transaction: when it throws, the database is left as it was. */
module CommentService {
  import opened Wrappers
  import opened JavaLang
  import opened Entities
  import opened Repositories

  const POST_NOT_FOUND: string := "Post not found"
  const USER_NOT_FOUND: string := "User not found"
  const COMMENT_NOT_FOUND: string := "Comment not found"
  const UNAUTHORIZED_ACCESS: string := "Unauthorized access"

  /** Post `postId` with its comment counter lowered by one (as a Java `int`). */
  function DecrementCommentCount(posts: map<int, Post>, postId: int): (r: map<int, Post>)
    requires postId in posts
    ensures r.Keys == posts.Keys
    ensures r[postId].commentCount == Wrap(posts[postId].commentCount - 1)
    ensures forall id :: id in posts && id != postId ==> r[id] == posts[id]
  {
    SetCommentCount(posts, postId, Wrap(posts[postId].commentCount - 1))
  }

  /** The delete as written lowers the counter of the post named in the request, whichever post
      the comment belongs to. Here comment 10 sits on post 1, the request names post 2: the
      counters match before, and match on neither post afterwards. */
  lemma DeleteCommentAsWrittenBreaksCount()
    ensures
      var posts := map[1 := Post(1, 7, "a", "b", 0, 0, 0, 1, []), 2 := Post(2, 7, "c", "d", 0, 0, 0, 0, [])];
      var comments := map[10 := Comment(10, 1, 7, "hi", 0, 0)];
      && CommentCountsMatch(posts, comments)
      && !CommentCountsMatch(DecrementCommentCount(posts, 2), comments - {10})
  {
    var posts := map[1 := Post(1, 7, "a", "b", 0, 0, 0, 1, []), 2 := Post(2, 7, "c", "d", 0, 0, 0, 0, [])];
    var comments := map[10 := Comment(10, 1, 7, "hi", 0, 0)];
    assert CommentsOf(comments, 1) == {10};
    assert CommentsOf(comments, 2) == {};
    assert CommentsOf(comments - {10}, 2) == {};
    assert DecrementCommentCount(posts, 2)[2].commentCount == Wrap(-1) == -1;
  }

  class CommentService {
    const db: Database

    constructor (db: Database)
      ensures this.db == db
    {
      this.db := db;
    }

    ghost predicate Valid()
      reads this, db
    {
      db.Consistent()
    }

    /** `addComment`: a missing post or author throws before any change; otherwise one comment
        is stored under a fresh id and the post's `commentCount` rises by one. */
    method AddComment(postId: int, userId: int, content: string) returns (r: Attempt<Comment>)
      requires Valid()
      modifies db`posts, db`comments, db`nextCommentId
      ensures Valid()
      ensures postId !in old(db.posts) ==> r == Threw(RuntimeException(POST_NOT_FOUND)) && unchanged(db)
      ensures postId in old(db.posts) && FindUserById(db.users, userId).None? ==>
                r == Threw(RuntimeException(USER_NOT_FOUND)) && unchanged(db)
      ensures postId in old(db.posts) && FindUserById(db.users, userId).Some? ==>
                var p := old(db.posts)[postId];
                && r == Returned(NewComment(old(db.nextCommentId), postId, userId, content))
                && r.value.id !in old(db.comments)
                && db.comments == old(db.comments)[r.value.id := r.value]
                && db.posts == SetCommentCount(old(db.posts), postId, Wrap(p.commentCount + 1))
                && db.nextCommentId == old(db.nextCommentId) + 1
    {
      if postId !in db.posts {
        return Threw(RuntimeException(POST_NOT_FOUND));
      }
      var user := FindUserById(db.users, userId);
      if user.None? {
        return Threw(RuntimeException(USER_NOT_FOUND));
      }
      var id := db.nextCommentId;
      var c := NewComment(id, postId, userId, content);
      CommentStored(db.comments, db.commentLikes, db.commentDislikes, id, c);
      CommentAdded(db.posts, db.comments, id, c);
      var p := db.posts[postId];
      var posts := SetCommentCount(db.posts, postId, Wrap(p.commentCount + 1));
      var comments := db.comments[id := c];
      assert CommentCountsMatch(posts, comments);
      assert CommentCountersMatch(comments, db.commentLikes, db.commentDislikes);
      CommentCountIsSeparate(db.posts, db.postLikes, db.postDislikes, postId, Wrap(p.commentCount + 1));
      assert PostCountersMatch(posts, db.postLikes, db.postDislikes);
      KeyedCommentCount(db.posts, db.postLikes, db.postDislikes, db.nextPostId, postId, Wrap(p.commentCount + 1));
      assert Keyed(posts, db.postLikes, db.postDislikes, db.nextPostId);
      CommentsKeyedAdd(db.comments, db.commentLikes, db.commentDislikes, id, db.nextPostId, c);
      assert CommentsKeyed(comments, db.commentLikes, db.commentDislikes, id + 1, db.nextPostId);
      db.comments := comments;
      db.posts := posts;
      db.nextCommentId := id + 1;
      r := Returned(c);
    }

    /** `deleteComment` with the missing check added: a comment that does not belong to post
        `postId` is not deleted (the result is `false`), so the counter lowered is always that of
        the comment's own post. Otherwise as written: a missing comment or post throws, a caller
        other than the author gets "Unauthorized access" and nothing is deleted. */
    method DeleteComment(postId: int, commentId: int, userId: int) returns (r: Attempt<bool>)
      requires Valid()
      modifies db`posts, db`comments
      ensures Valid()
      ensures r == if commentId !in old(db.comments) then Threw(RuntimeException(COMMENT_NOT_FOUND))
                   else if postId !in old(db.posts) then Threw(RuntimeException(POST_NOT_FOUND))
                   else if old(db.comments)[commentId].postId != postId then Returned(false)
                   else if old(db.comments)[commentId].owner != userId then Threw(RuntimeException(UNAUTHORIZED_ACCESS))
                   else Returned(true)
      ensures r == Returned(true) ==>
                && db.comments == old(db.comments) - {commentId}
                && db.posts == DecrementCommentCount(old(db.posts), postId)
      ensures r != Returned(true) ==> unchanged(db)
    {
      if commentId !in db.comments {
        return Threw(RuntimeException(COMMENT_NOT_FOUND));
      }
      var c := db.comments[commentId];
      if postId !in db.posts {
        return Threw(RuntimeException(POST_NOT_FOUND));
      }
      if c.postId != postId {
        return Returned(false);
      }
      if c.owner != userId {
        return Threw(RuntimeException(UNAUTHORIZED_ACCESS));
      }
      var posts := DecrementCommentCount(db.posts, postId);
      var comments := db.comments - {commentId};
      CommentRemoved(db.posts, db.comments, commentId);
      assert CommentCountsMatch(posts, comments);
      CommentCountersRemove(db.comments, db.commentLikes, db.commentDislikes, commentId);
      CommentsKeyedRemove(db.comments, db.commentLikes, db.commentDislikes, db.nextCommentId, db.nextPostId, commentId);
      CommentCountIsSeparate(db.posts, db.postLikes, db.postDislikes, postId, Wrap(db.posts[postId].commentCount - 1));
      assert PostCountersMatch(posts, db.postLikes, db.postDislikes);
      KeyedCommentCount(db.posts, db.postLikes, db.postDislikes, db.nextPostId, postId, Wrap(db.posts[postId].commentCount - 1));
      assert Keyed(posts, db.postLikes, db.postDislikes, db.nextPostId);
      db.comments := comments;
      db.posts := posts;
      r := Returned(true);
    }

    /** `deleteComment` as written: the comment is removed and the counter of post `postId` is
        lowered even when the comment belongs to another post. The reaction bookkeeping survives
        (`db.Valid()`), the comment counters need not (see `DeleteCommentAsWrittenBreaksCount`). */
    method DeleteCommentAsWritten(postId: int, commentId: int, userId: int) returns (r: Attempt<bool>)
      requires db.Valid()
      modifies db`posts, db`comments
      ensures db.Valid()
      ensures r == if commentId !in old(db.comments) then Threw(RuntimeException(COMMENT_NOT_FOUND))
                   else if postId !in old(db.posts) then Threw(RuntimeException(POST_NOT_FOUND))
                   else if old(db.comments)[commentId].owner != userId then Threw(RuntimeException(UNAUTHORIZED_ACCESS))
                   else Returned(true)
      ensures r == Returned(true) ==>
                && db.comments == old(db.comments) - {commentId}
                && db.posts == DecrementCommentCount(old(db.posts), postId)
      ensures r != Returned(true) ==> unchanged(db)
    {
      if commentId !in db.comments {
        return Threw(RuntimeException(COMMENT_NOT_FOUND));
      }
      var c := db.comments[commentId];
      if postId !in db.posts {
        return Threw(RuntimeException(POST_NOT_FOUND));
      }
      if c.owner != userId {
        return Threw(RuntimeException(UNAUTHORIZED_ACCESS));
      }
      CommentCountersRemove(db.comments, db.commentLikes, db.commentDislikes, commentId);
      CommentsKeyedRemove(db.comments, db.commentLikes, db.commentDislikes, db.nextCommentId, db.nextPostId, commentId);
      CommentCountIsSeparate(db.posts, db.postLikes, db.postDislikes, postId, Wrap(db.posts[postId].commentCount - 1));
      KeyedCommentCount(db.posts, db.postLikes, db.postDislikes, db.nextPostId, postId, Wrap(db.posts[postId].commentCount - 1));
      db.comments := db.comments - {commentId};
      db.posts := DecrementCommentCount(db.posts, postId);
      r := Returned(true);
    }

    /** `updateComment`: only the author may replace the content; nothing else changes. */
    method UpdateComment(commentId: int, userId: int, content: string) returns (r: Attempt<Comment>)
      requires Valid()
      modifies db`comments
      ensures Valid()
      ensures commentId !in old(db.comments) ==> r == Threw(RuntimeException(COMMENT_NOT_FOUND)) && unchanged(db)
      ensures commentId in old(db.comments) && old(db.comments)[commentId].owner != userId ==>
                r == Threw(RuntimeException(UNAUTHORIZED_ACCESS)) && unchanged(db)
      ensures commentId in old(db.comments) && old(db.comments)[commentId].owner == userId ==>
                && r == Returned(old(db.comments)[commentId].(content := content))
                && db.comments == old(db.comments)[commentId := r.value]
    {
      if commentId !in db.comments {
        return Threw(RuntimeException(COMMENT_NOT_FOUND));
      }
      var c := db.comments[commentId];
      if c.owner != userId {
        return Threw(RuntimeException(UNAUTHORIZED_ACCESS));
      }
      c := c.(content := content);
      CommentsOfReplace(db.comments, commentId, c);
      db.comments := db.comments[commentId := c];
      r := Returned(c);
    }

    /** `likeComment`: a duplicate like is refused with `false`; a missing comment or user
        throws; otherwise one like row is added and the comment's `likeCount` rises by one. */
    method LikeComment(commentId: int, userId: int) returns (r: Attempt<bool>)
      requires Valid()
      modifies db`comments, db`commentLikes
      ensures Valid()
      ensures r == if (commentId, userId) in old(db.commentLikes) then Returned(false)
                   else if commentId !in old(db.comments) then Threw(RuntimeException(COMMENT_NOT_FOUND))
                   else if FindUserById(old(db.users), userId).None? then Threw(RuntimeException(USER_NOT_FOUND))
                   else Returned(true)
      ensures r == Returned(true) ==>
                var c := old(db.comments)[commentId];
                && db.commentLikes == old(db.commentLikes) + {(commentId, userId)}
                && db.comments == old(db.comments)[commentId := c.(likeCount := Wrap(c.likeCount + 1))]
      ensures r != Returned(true) ==> unchanged(db)
    {
      if (commentId, userId) in db.commentLikes {
        return Returned(false);
      }
      if commentId !in db.comments {
        return Threw(RuntimeException(COMMENT_NOT_FOUND));
      }
      var user := FindUserById(db.users, userId);
      if user.None? {
        return Threw(RuntimeException(USER_NOT_FOUND));
      }
      var c := db.comments[commentId];
      HoldersInsert(db.commentLikes, commentId, userId);
      CommentLikesMoved(db.comments, db.commentLikes, db.commentDislikes,
                        db.commentLikes + {(commentId, userId)}, commentId, 1);
      CommentsOfReplace(db.comments, commentId, c.(likeCount := Wrap(c.likeCount + 1)));
      db.commentLikes := db.commentLikes + {(commentId, userId)};
      db.comments := db.comments[commentId := c.(likeCount := Wrap(c.likeCount + 1))];
      r := Returned(true);
    }

    /** `unlikeComment`: an absent like is refused with `false`; otherwise the row is deleted
        and `likeCount` falls by one; a missing comment throws and the deletion is rolled back. */
    method UnlikeComment(commentId: int, userId: int) returns (r: Attempt<bool>)
      requires Valid()
      modifies db`comments, db`commentLikes
      ensures Valid()
      ensures r == if (commentId, userId) !in old(db.commentLikes) then Returned(false)
                   else if commentId !in old(db.comments) then Threw(RuntimeException(COMMENT_NOT_FOUND))
                   else Returned(true)
      ensures r == Returned(true) ==>
                var c := old(db.comments)[commentId];
                && db.commentLikes == old(db.commentLikes) - {(commentId, userId)}
                && db.comments == old(db.comments)[commentId := c.(likeCount := Wrap(c.likeCount - 1))]
      ensures r != Returned(true) ==> unchanged(db)
    {
      if (commentId, userId) !in db.commentLikes {
        return Returned(false);
      }
      if commentId !in db.comments {
        return Threw(RuntimeException(COMMENT_NOT_FOUND));
      }
      var c := db.comments[commentId];
      HoldersRemove(db.commentLikes, commentId, userId);
      CommentLikesMoved(db.comments, db.commentLikes, db.commentDislikes,
                        db.commentLikes - {(commentId, userId)}, commentId, -1);
      CommentsOfReplace(db.comments, commentId, c.(likeCount := Wrap(c.likeCount - 1)));
      db.commentLikes := db.commentLikes - {(commentId, userId)};
      db.comments := db.comments[commentId := c.(likeCount := Wrap(c.likeCount - 1))];
      r := Returned(true);
    }

    /** `dislikeComment`: `likeComment` on the dislike table and `dislikeCount`. */
    method DislikeComment(commentId: int, userId: int) returns (r: Attempt<bool>)
      requires Valid()
      modifies db`comments, db`commentDislikes
      ensures Valid()
      ensures r == if (commentId, userId) in old(db.commentDislikes) then Returned(false)
                   else if commentId !in old(db.comments) then Threw(RuntimeException(COMMENT_NOT_FOUND))
                   else if FindUserById(old(db.users), userId).None? then Threw(RuntimeException(USER_NOT_FOUND))
                   else Returned(true)
      ensures r == Returned(true) ==>
                var c := old(db.comments)[commentId];
                && db.commentDislikes == old(db.commentDislikes) + {(commentId, userId)}
                && db.comments == old(db.comments)[commentId := c.(dislikeCount := Wrap(c.dislikeCount + 1))]
      ensures r != Returned(true) ==> unchanged(db)
    {
      if (commentId, userId) in db.commentDislikes {
        return Returned(false);
      }
      if commentId !in db.comments {
        return Threw(RuntimeException(COMMENT_NOT_FOUND));
      }
      var user := FindUserById(db.users, userId);
      if user.None? {
        return Threw(RuntimeException(USER_NOT_FOUND));
      }
      var c := db.comments[commentId];
      HoldersInsert(db.commentDislikes, commentId, userId);
      CommentDislikesMoved(db.comments, db.commentLikes, db.commentDislikes,
                           db.commentDislikes + {(commentId, userId)}, commentId, 1);
      CommentsOfReplace(db.comments, commentId, c.(dislikeCount := Wrap(c.dislikeCount + 1)));
      db.commentDislikes := db.commentDislikes + {(commentId, userId)};
      db.comments := db.comments[commentId := c.(dislikeCount := Wrap(c.dislikeCount + 1))];
      r := Returned(true);
    }

    /** `undislikeComment`: `unlikeComment` on the dislike table and `dislikeCount`. */
    method UndislikeComment(commentId: int, userId: int) returns (r: Attempt<bool>)
      requires Valid()
      modifies db`comments, db`commentDislikes
      ensures Valid()
      ensures r == if (commentId, userId) !in old(db.commentDislikes) then Returned(false)
                   else if commentId !in old(db.comments) then Threw(RuntimeException(COMMENT_NOT_FOUND))
                   else Returned(true)
      ensures r == Returned(true) ==>
                var c := old(db.comments)[commentId];
                && db.commentDislikes == old(db.commentDislikes) - {(commentId, userId)}
                && db.comments == old(db.comments)[commentId := c.(dislikeCount := Wrap(c.dislikeCount - 1))]
      ensures r != Returned(true) ==> unchanged(db)
    {
      if (commentId, userId) !in db.commentDislikes {
        return Returned(false);
      }
      if commentId !in db.comments {
        return Threw(RuntimeException(COMMENT_NOT_FOUND));
      }
      var c := db.comments[commentId];
      HoldersRemove(db.commentDislikes, commentId, userId);
      CommentDislikesMoved(db.comments, db.commentLikes, db.commentDislikes,
                           db.commentDislikes - {(commentId, userId)}, commentId, -1);
      CommentsOfReplace(db.comments, commentId, c.(dislikeCount := Wrap(c.dislikeCount - 1)));
      db.commentDislikes := db.commentDislikes - {(commentId, userId)};
      db.comments := db.comments[commentId := c.(dislikeCount := Wrap(c.dislikeCount - 1))];
      r := Returned(true);
    }
  }
}

=== FILE: common.dfy ===
/** Option and the outcome of a call that may throw, shared by every module. */
module Wrappers {

  datatype Option<T> = None | Some(value: T)

  /** What a Java catch clause can tell apart: an unchecked exception
      (RuntimeException and its subclasses) or a checked one (IOException, ...). */
  datatype Failure = RuntimeException(message: string) | CheckedException(message: string)

  /** The outcome of a Java call that either returns a value or throws. */
  datatype Attempt<T> = Returned(value: T) | Threw(failure: Failure)
}

/** The parts of Java's `int` and `String` semantics that the model depends on. */
module JavaLang {
  import opened Wrappers

  const INT_MIN: int := -0x8000_0000
  const INT_MAX: int := 0x7FFF_FFFF
  const TWO_TO_32: int := 0x1_0000_0000

  predicate IsInt(x: int) { INT_MIN <= x <= INT_MAX }

  /** Two's-complement wrap-around of a mathematical integer into a Java `int`. */
  function Wrap(x: int): (r: int)
    ensures IsInt(r)
    ensures IsInt(x) ==> r == x
    ensures (x - r) % TWO_TO_32 == 0
  {
    var r := (x - INT_MIN) % TWO_TO_32 + INT_MIN;
    assert x - r == TWO_TO_32 * ((x - INT_MIN) / TWO_TO_32);
    r
  }

  /** `x + 1` and `x - 1` on a Java `int`: exact except at the two ends of the range. */
  lemma WrapStep(x: int)
    requires IsInt(x)
    ensures Wrap(x + 1) == if x == INT_MAX then INT_MIN else x + 1
    ensures Wrap(x - 1) == if x == INT_MIN then INT_MAX else x - 1
  {
    if x == INT_MAX {
      assert Wrap(x + 1) == (TWO_TO_32 % TWO_TO_32) + INT_MIN;
    }
    if x == INT_MIN {
      assert Wrap(x - 1) == ((-1) % TWO_TO_32) + INT_MIN;
    }
  }

  /** Adding a multiple of 2^32 does not change a remainder modulo 2^32. */
  lemma ModShift(y: int, k: int)
    ensures (y + k * TWO_TO_32) % TWO_TO_32 == y % TWO_TO_32
  {
    var q := y / TWO_TO_32;
    assert y + k * TWO_TO_32 == (q + k) * TWO_TO_32 + y % TWO_TO_32;
  }

  /** Wrapping an intermediate result does not change the wrapped outcome of a later addition:
      Java's `(x + d)` on an `int` that already holds `Wrap(x)` equals `Wrap(x + d)`. */
  lemma {:induction false} WrapShift(x: int, d: int)
    ensures Wrap(Wrap(x) + d) == Wrap(x + d)
  {
    var k := (x - INT_MIN) / TWO_TO_32;
    assert Wrap(x) == x - k * TWO_TO_32;
    ModShift(x + d - INT_MIN, -k);
  }

  predicate StartsWith(s: string, prefix: string)
  {
    |prefix| <= |s| && s[..|prefix|] == prefix
  }

  /** Spring's `StringUtils.isEmpty`: null or the empty string. */
  predicate IsEmpty(s: Option<string>)
  {
    s.None? || s.value == ""
  }

  /** The number of leading characters that `String.trim` strips (code point at most U+0020). */
  function LeadingBlanks(s: string): (n: nat)
    ensures n <= |s|
    ensures forall i :: 0 <= i < n ==> s[i] <= ' '
    ensures n < |s| ==> s[n] > ' '
  {
    if |s| > 0 && s[0] <= ' ' then 1 + LeadingBlanks(s[1..]) else 0
  }

  /** The number of trailing characters that `String.trim` strips. */
  function TrailingBlanks(s: string): (n: nat)
    ensures n <= |s|
    ensures forall i :: |s| - n <= i < |s| ==> s[i] <= ' '
    ensures n < |s| ==> s[|s| - n - 1] > ' '
  {
    if |s| > 0 && s[|s| - 1] <= ' ' then 1 + TrailingBlanks(s[..|s| - 1]) else 0
  }

  /** `String.trim`: drop leading blanks, then trailing blanks. */
  function Trim(s: string): (r: string)
  {
    var rest := s[LeadingBlanks(s)..];
    rest[..|rest| - TrailingBlanks(rest)]
  }

  /** `s.trim().isEmpty()` holds exactly when every character of `s` is at most U+0020. */
  lemma TrimEmptyIffBlank(s: string)
    ensures Trim(s) == "" <==> forall i :: 0 <= i < |s| ==> s[i] <= ' '
  {
    var lead := LeadingBlanks(s);
    var rest := s[lead..];
    if Trim(s) == "" {
      // a non-blank character at position `lead` would survive the trailing cut
      assert TrailingBlanks(rest) == |rest|;
    }
    if forall i :: 0 <= i < |s| ==> s[i] <= ' ' {
      assert lead == |s|;
    }
  }

  /** `String.lastIndexOf(char)`: the last position of `c` in `s`, or -1. */
  function LastIndexOf(s: string, c: char): (r: int)
    ensures -1 <= r < |s|
    ensures r >= 0 ==> s[r] == c
    ensures forall i :: r < i < |s| ==> s[i] != c
  {
    if |s| == 0 then -1
    else if s[|s| - 1] == c then |s| - 1
    else LastIndexOf(s[..|s| - 1], c)
  }

  function LowerChar(c: char): (r: char)
  {
    if 'A' <= c <= 'Z' then (c as int + 32) as char
    else if c == '\U{212A}' then 'k'  // KELVIN SIGN lower-cases to ASCII 'k'
    else c
  }

  function UpperChar(c: char): (r: char)
  {
    if 'a' <= c <= 'z' then (c as int - 32) as char
    else if c == '\U{017F}' then 'S'  // LATIN SMALL LETTER LONG S upper-cases to ASCII 'S'
    else if c == '\U{0131}' then 'I'  // LATIN SMALL LETTER DOTLESS I upper-cases to ASCII 'I'
    else c
  }

  /** `String.toLowerCase` restricted to the characters that can lower-case to ASCII letters. */
  function Lower(s: string): (r: string)
    ensures |r| == |s|
    ensures forall i :: 0 <= i < |s| ==> r[i] == LowerChar(s[i])
  {
    if |s| == 0 then "" else Lower(s[..|s| - 1]) + [LowerChar(s[|s| - 1])]
  }

  /** `String.toUpperCase(Locale.US)` restricted to the characters that can upper-case to ASCII
      letters. */
  function Upper(s: string): (r: string)
    ensures |r| == |s|
    ensures forall i :: 0 <= i < |s| ==> r[i] == UpperChar(s[i])
  {
    if |s| == 0 then "" else Upper(s[..|s| - 1]) + [UpperChar(s[|s| - 1])]
  }

  /** Upper-casing twice is upper-casing once. */
  lemma UpperIdempotent(s: string)
    ensures Upper(Upper(s)) == Upper(s)
  {
    var u := Upper(s);
    assert forall i :: 0 <= i < |u| ==> Upper(u)[i] == u[i];
  }
}

=== FILE: entities.dfy ===
/** The persistent entities, as values. Timestamps are left out of the model. */
module Entities {
  import opened Wrappers

  /** The URL prefix under which a stored upload is served; prepended to every stored file name. */
  const UPLOADS_PREFIX: string := "/uploads/"

  /** A row of `users`: unique id, unique email, unique nickname, password as stored (encoded). */
  datatype User = User(id: int, email: string, password: string, nickname: string,
                       profileImageUrl: Option<string>)

  /** A row of `post_photos`; the owning post holds its photos in order. */
  datatype PostPhoto = PostPhoto(url: string, photoOrder: int)

  /** A row of `posts`. The four counters are maintained by the services, never recomputed. */
  datatype Post = Post(id: int, owner: int, title: string, content: string,
                       likeCount: int, dislikeCount: int, viewCount: int, commentCount: int,
                       photos: seq<PostPhoto>)

  /** A row of `comments`. */
  datatype Comment = Comment(id: int, postId: int, owner: int, content: string,
                             likeCount: int, dislikeCount: int)

  /** A row of `email_verification`, unique on the email. */
  datatype EmailVerification = EmailVerification(email: string, code: string, verified: bool)

  /** A freshly constructed post: every counter starts at zero. */
  function NewPost(id: int, owner: int, title: string, content: string, photos: seq<PostPhoto>): (r: Post)
  {
    Post(id, owner, title, content, 0, 0, 0, 0, photos)
  }

  /** A freshly constructed comment: both counters start at zero. */
  function NewComment(id: int, postId: int, owner: int, content: string): (r: Comment)
  {
    Comment(id, postId, owner, content, 0, 0)
  }
}

=== FILE: file_controller.dfy ===
/** `FileController`: serving stored uploads with a content type found by a fallback chain.
    The file system and the servlet container are given as values: whether the stored file
    exists (or the URL error), what `Files.probeContentType` answers (or its `IOException`), and
    what `ServletContext.getMimeType` answers. */
module FileController {
  import opened Wrappers
  import opened JavaLang
  import opened Http

  const DEFAULT_CONTENT_TYPE: string := "application/octet-stream"

  /** `StringUtils.getFilenameExtension`: the text after the last `.`, unless there is no `.` or
      a `/` follows it. */
  function FilenameExtension(path: string): (r: Option<string>)
    ensures r.Some? <==> LastIndexOf(path, '.') >= 0 && LastIndexOf(path, '/') <= LastIndexOf(path, '.')
    ensures r.Some? ==> path == path[..LastIndexOf(path, '.') + 1] + r.value
    ensures r.Some? ==> forall i :: 0 <= i < |r.value| ==> r.value[i] != '.' && r.value[i] != '/'
  {
    var dot := LastIndexOf(path, '.');
    if dot == -1 then None
    else if LastIndexOf(path, '/') > dot then None
    else Some(path[dot + 1..])
  }

  /** A name ending in `.` and a plain extension yields that extension. */
  lemma FilenameExtensionOf(base: string, ext: string)
    requires forall i :: 0 <= i < |ext| ==> ext[i] != '.' && ext[i] != '/'
    ensures FilenameExtension(base + "." + ext) == Some(ext)
  {
    var path := base + "." + ext;
    assert path[|base|] == '.';
    var dot := LastIndexOf(path, '.');
    assert dot == |base| by {
      assert forall i :: |base| < i < |path| ==> path[i] == ext[i - |base| - 1];
    }
    assert forall i :: |base| < i < |path| ==> path[i] != '/';
    assert path[dot + 1..] == ext;
  }

  /** The extension table, on the lower-cased extension. */
  function MimeOf(extension: string): (r: Option<string>)
  {
    if extension == "png" then Some("image/png")
    else if extension == "jpg" || extension == "jpeg" then Some("image/jpeg")
    else if extension == "gif" then Some("image/gif")
    else if extension == "txt" then Some("text/plain")
    else None
  }

  /** `getContentTypeByFileExtension`: the table entry for the lower-cased extension, or null
      when the name has no extension or an unlisted one. */
  function ContentTypeByFileExtension(fileName: string): (r: Option<string>)
    ensures FilenameExtension(fileName).None? ==> r.None?
    ensures FilenameExtension(fileName).Some? ==> r == MimeOf(Lower(FilenameExtension(fileName).value))
    ensures r.Some? ==> r.value in {"image/png", "image/jpeg", "image/gif", "text/plain"}
  {
    match FilenameExtension(fileName)
    case None => None
    case Some(extension) => MimeOf(Lower(extension))
  }

  /** The table ignores case and looks only at the last extension: `base.ext` gets the entry of
      `ext` in lower case, e.g. `photo.PNG` is `image/png`. */
  lemma ContentTypeOfName(base: string, ext: string)
    requires forall i :: 0 <= i < |ext| ==> ext[i] != '.' && ext[i] != '/'
    ensures ContentTypeByFileExtension(base + "." + ext) == MimeOf(Lower(ext))
  {
    FilenameExtensionOf(base, ext);
  }

  /** The first candidate that is neither null nor empty, else the fallback. */
  function FirstNonEmpty(candidates: seq<Option<string>>, fallback: string): (r: string)
    ensures fallback != "" ==> r != ""
  {
    if |candidates| == 0 then fallback
    else if !IsEmpty(candidates[0]) then candidates[0].value
    else FirstNonEmpty(candidates[1..], fallback)
  }

  /** The chain stops at the first usable candidate: the fallback only when none is usable, and
      otherwise the first one that is. */
  lemma {:induction false} FirstNonEmptyIsFirst(candidates: seq<Option<string>>, fallback: string)
    ensures (forall i :: 0 <= i < |candidates| ==> IsEmpty(candidates[i])) ==> FirstNonEmpty(candidates, fallback) == fallback
    ensures forall i :: (0 <= i < |candidates| && !IsEmpty(candidates[i]) &&
                         (forall j :: 0 <= j < i ==> IsEmpty(candidates[j]))) ==>
                          FirstNonEmpty(candidates, fallback) == candidates[i].value
  {
    if |candidates| > 0 && IsEmpty(candidates[0]) {
      var rest := candidates[1..];
      FirstNonEmptyIsFirst(rest, fallback);
      assert forall i :: 1 <= i < |candidates| ==> candidates[i] == rest[i - 1];
      forall i | 0 < i < |candidates| && !IsEmpty(candidates[i]) && (forall j :: 0 <= j < i ==> IsEmpty(candidates[j]))
        ensures FirstNonEmpty(candidates, fallback) == candidates[i].value
      {
        assert forall j :: 0 <= j < i - 1 ==> IsEmpty(rest[j]) by {
          forall j | 0 <= j < i - 1 ensures IsEmpty(rest[j]) {
            assert rest[j] == candidates[j + 1];
          }
        }
      }
    }
  }

  /** The chain over three candidates, spelled out. */
  lemma FirstOfThree(a: Option<string>, b: Option<string>, c: Option<string>, fallback: string)
    ensures FirstNonEmpty([a, b, c], fallback) ==
            if !IsEmpty(a) then a.value else if !IsEmpty(b) then b.value else if !IsEmpty(c) then c.value else fallback
  {
    var last := [c];
    var two := [b, c];
    assert last[1..] == [];
    assert two[1..] == last;
    assert [a, b, c][1..] == two;
    assert FirstNonEmpty(last, fallback) == if IsEmpty(c) then fallback else c.value;
    assert FirstNonEmpty(two, fallback) == if IsEmpty(b) then FirstNonEmpty(last, fallback) else b.value;
  }

  /** A failed probe counts as no answer. */
  function ProbeAnswer(probe: Attempt<Option<string>>): (r: Option<string>)
  {
    if probe.Threw? then None else probe.value
  }

  /** `determineContentType`: the local `contentType` is reassigned down the chain while it is
      still null or empty: the probe, the servlet container, the extension table, the default. */
  method DetermineContentType(fileName: string, probe: Attempt<Option<string>>, servletMime: Option<string>)
    returns (contentType: string)
    ensures contentType == FirstNonEmpty([ProbeAnswer(probe), servletMime, ContentTypeByFileExtension(fileName)],
                                         DEFAULT_CONTENT_TYPE)
    ensures contentType != ""
  {
    var byExtension := ContentTypeByFileExtension(fileName);
    var current: Option<string> := None;
    if probe.Returned? {
      current := probe.value;
    }
    if IsEmpty(current) {
      current := servletMime;
    }
    if IsEmpty(current) {
      current := byExtension;
    }
    if IsEmpty(current) {
      current := Some(DEFAULT_CONTENT_TYPE);
    }
    FirstOfThree(ProbeAnswer(probe), servletMime, byExtension, DEFAULT_CONTENT_TYPE);
    contentType := current.value;
  }

  datatype Download =
    | Inline(contentType: string, contentDisposition: string)
    | NoBody

  /** `downloadFile`: `located` says whether the stored file exists, or carries the
      `MalformedURLException`; a missing file gives 404 and a bad URL 500, both without a body;
      otherwise 200 serves it inline under its own name with the determined content type. */
  method DownloadFile(fileName: string, located: Attempt<bool>, probe: Attempt<Option<string>>,
                      servletMime: Option<string>)
    returns (r: Response<Download>)
    ensures located == Returned(false) ==> r == Response(404, NoBody)
    ensures located.Threw? ==> r == Response(500, NoBody)
    ensures located == Returned(true) ==>
              && r.status == 200
              && r.body.Inline?
              && r.body.contentType != ""
              && r.body.contentType == FirstNonEmpty([ProbeAnswer(probe), servletMime, ContentTypeByFileExtension(fileName)],
                                                     DEFAULT_CONTENT_TYPE)
              && r.body.contentDisposition == "inline; filename=\"" + fileName + "\""
  {
    match located
    case Threw(_) =>
      r := Response(500, NoBody);
    case Returned(found) =>
      if !found {
        return Response(404, NoBody);
      }
      var contentType := DetermineContentType(fileName, probe, servletMime);
      r := Response(200, Inline(contentType, "inline; filename=\"" + fileName + "\""));
  }
}

=== FILE: http.dfy ===
/** What the controllers share: the response shape, the user id taken from the
    `Authorization` header, and the conversion between the 1-based page numbers of the API and
    Spring Data's 0-based `PageRequest` and `Page`. */
module Http {
  import opened Wrappers
  import opened JavaLang
  import opened Entities
  import UserService

  /** A `ResponseEntity`: status code and body. */
  datatype Response<B> = Response(status: int, body: B)

  /** Length of the `Bearer ` prefix that `getUserIdFromToken` cuts off unchecked. */
  const BEARER_PREFIX_LENGTH: nat := 7
  const USER_NOT_FOUND: string := "User not found"

  function DigitChar(d: nat): (c: char)
    requires d < 10
    ensures '0' <= c <= '9' && c as int - '0' as int == d
  {
    ('0' as int + d) as char
  }

  predicate AllDigits(s: string)
  {
    forall i :: 0 <= i < |s| ==> '0' <= s[i] <= '9'
  }

  /** Decimal rendering of a natural number, as `Integer.toString` writes it; used only to
      spell the message of `SubstringOutOfRange`. */
  function NatToString(n: nat): (s: string)
    ensures |s| >= 1 && AllDigits(s)
  {
    if n < 10 then [DigitChar(n)] else NatToString(n / 10) + [DigitChar(n % 10)]
  }

  /** The message of the `StringIndexOutOfBoundsException` that `substring(7)` throws on a
      string of length `n < 7` (JDK 17 wording). */
  function SubstringOutOfRange(n: nat): (r: string)
  {
    "begin 7, end " + NatToString(n) + ", length " + NatToString(n)
  }

  /** `token.substring(7)`: the header without its first seven characters, whatever they are;
      a shorter header throws. */
  function StripBearer(header: string): (r: Attempt<string>)
    ensures r.Returned? <==> |header| >= BEARER_PREFIX_LENGTH
    ensures r.Returned? ==> header == header[..BEARER_PREFIX_LENGTH] + r.value
    ensures r.Threw? ==> r.failure == RuntimeException(SubstringOutOfRange(|header|))
  {
    if |header| < BEARER_PREFIX_LENGTH then Threw(RuntimeException(SubstringOutOfRange(|header|)))
    else Returned(header[BEARER_PREFIX_LENGTH..])
  }

  /** Any seven-character prefix followed by a token gives back that token. */
  lemma StripBearerInverse(prefix: string, token: string)
    requires |prefix| == BEARER_PREFIX_LENGTH
    ensures StripBearer(prefix + token) == Returned(token)
  {
    assert (prefix + token)[BEARER_PREFIX_LENGTH..] == token;
  }

  /** `getUserIdFromToken`: strip the prefix, ask the token provider for the email it names, and
      look the email up; a missing user throws "User not found", and every failure on the way
      propagates as it is. */
  function UserIdFromToken(header: string, usernameOf: string -> Attempt<string>, users: seq<User>)
    : (r: Attempt<int>)
    ensures r.Returned? <==>
              && |header| >= BEARER_PREFIX_LENGTH
              && usernameOf(header[BEARER_PREFIX_LENGTH..]).Returned?
              && UserService.FindByEmail(users, usernameOf(header[BEARER_PREFIX_LENGTH..]).value).Some?
    ensures r.Returned? ==>
              exists u :: u in users && u.id == r.value && u.email == usernameOf(header[BEARER_PREFIX_LENGTH..]).value
    ensures |header| < BEARER_PREFIX_LENGTH ==> r == Threw(RuntimeException(SubstringOutOfRange(|header|)))
    ensures |header| >= BEARER_PREFIX_LENGTH && usernameOf(header[BEARER_PREFIX_LENGTH..]).Returned? &&
            UserService.FindByEmail(users, usernameOf(header[BEARER_PREFIX_LENGTH..]).value).None? ==>
              r == Threw(RuntimeException(USER_NOT_FOUND))
  {
    match StripBearer(header)
    case Threw(f) => Threw(f)
    case Returned(token) =>
      match usernameOf(token)
      case Threw(f) => Threw(f)
      case Returned(email) =>
        match UserService.FindByEmail(users, email)
        case None => Threw(RuntimeException(USER_NOT_FOUND))
        case Some(u) => Returned(u.id)
  }

  /** `PageRequest` after its argument checks. */
  datatype PageRequest = PageRequest(index: int, size: int)

  const PAGE_INDEX_NEGATIVE: string := "Page index must not be less than zero"
  const PAGE_SIZE_TOO_SMALL: string := "Page size must not be less than one"

  /** `page - 1` in Java `int` arithmetic. */
  function PageIndex(page: int): (index: int)
    requires IsInt(page)
    ensures IsInt(index)
    ensures page != INT_MIN ==> index == page - 1
    ensures page == INT_MIN ==> index == INT_MAX
  {
    Wrap(page - 1)
  }

  /** `PageRequest.of(index, size)`: a negative index or a size below one is rejected with an
      `IllegalArgumentException`. */
  function PageRequestOf(index: int, size: int): (r: Attempt<PageRequest>)
    ensures r.Returned? <==> index >= 0 && size >= 1
    ensures r.Returned? ==> r.value.index == index && r.value.size == size
    ensures index < 0 ==> r == Threw(RuntimeException(PAGE_INDEX_NEGATIVE))
    ensures index >= 0 && size < 1 ==> r == Threw(RuntimeException(PAGE_SIZE_TOO_SMALL))
  {
    if index < 0 then Threw(RuntimeException(PAGE_INDEX_NEGATIVE))
    else if size < 1 then Threw(RuntimeException(PAGE_SIZE_TOO_SMALL))
    else Returned(PageRequest(index, size))
  }

  /** The repository hands the offset `index * size` to the query as an `int`; a larger offset
      is refused with an `InvalidDataAccessApiUsageException` before the query runs. */
  predicate OffsetFits(request: PageRequest)
  {
    request.index * request.size <= INT_MAX
  }

  /** A `Page`: its slice of the items, its number, and the totals. */
  datatype Page<T> = Page(content: seq<T>, number: int, totalPages: int, totalElements: int)

  function Min(a: int, b: int): (r: int)
  {
    if a <= b then a else b
  }

  /** `ceil(n / size)`: the number of pages `n` items fill. */
  function PageCount(n: nat, size: int): (c: int)
    requires size >= 1
    ensures c >= 0
    ensures n == 0 ==> c == 0
    ensures n > 0 ==> (c - 1) * size < n <= c * size
  {
    var c := (n + size - 1) / size;
    assert n + size - 1 == c * size + (n + size - 1) % size;
    assert (c - 1) * size == c * size - size;
    c
  }

  /** The page a repository returns for `request` over `items` (already in query order): the
      items from `index * size` on, at most `size` of them; `ceil(n / size)` pages in all. */
  function PageOf<T>(items: seq<T>, request: PageRequest): (p: Page<T>)
    requires request.index >= 0 && request.size >= 1
    ensures p.number == request.index && p.totalElements == |items|
    ensures |p.content| <= request.size
    ensures |p.content| == if request.index * request.size >= |items| then 0
                           else Min(request.size, |items| - request.index * request.size)
    ensures forall i :: 0 <= i < |p.content| ==> p.content[i] == items[request.index * request.size + i]
    ensures p.totalPages == PageCount(|items|, request.size)
  {
    var start := Min(request.index * request.size, |items|);
    var end := Min(start + request.size, |items|);
    Page(items[start..end], request.index, PageCount(|items|, request.size), |items|)
  }

  /** The contents of pages `k`, `k + 1`, … of `items`, concatenated. */
  function ContentsFrom<T>(items: seq<T>, size: int, k: nat): (r: seq<T>)
    requires size >= 1
    decreases |items| - k * size
  {
    if k * size >= |items| then []
    else PageOf(items, PageRequest(k, size)).content + ContentsFrom(items, size, k + 1)
  }

  /** Paging loses nothing and repeats nothing: the pages in order give back the items. */
  lemma {:induction false} PagesCover<T>(items: seq<T>, size: int, k: nat)
    requires size >= 1
    ensures ContentsFrom(items, size, k) == if k * size >= |items| then [] else items[k * size..]
    decreases |items| - k * size
  {
    var start := k * size;
    if start < |items| {
      var next := start + size;
      assert (k + 1) * size == next;
      PagesCover(items, size, k + 1);
      var page := PageOf(items, PageRequest(k, size)).content;
      if next >= |items| {
        assert page == items[start..];
      } else {
        assert page == items[start..next];
        assert items[start..] == page + items[next..];
      }
    }
  }

  /** The `currentPage` field: `getNumber() + 1` in Java `int` arithmetic. */
  function CurrentPage<T>(p: Page<T>): (r: int)
  {
    Wrap(p.number + 1)
  }

  /** The page number round-trips: `PageRequest.of` accepts page `page` exactly when `page`
      is at least 1 (or is the `int` minimum, whose `page - 1` wraps to the maximum) and the
      limit is at least 1, and its page reports `page` back as `currentPage`. For the `int`
      minimum the offset fits an `int` only with limit 1, so a larger limit is refused by the
      repository. */
  lemma PageNumberRoundTrip<T>(items: seq<T>, page: int, limit: int)
    requires IsInt(page)
    ensures PageRequestOf(PageIndex(page), limit).Returned? <==> (page >= 1 || page == INT_MIN) && limit >= 1
    ensures PageRequestOf(PageIndex(page), limit).Returned? ==>
              CurrentPage(PageOf(items, PageRequestOf(PageIndex(page), limit).value)) == page
    ensures page == INT_MIN && limit >= 1 ==> (OffsetFits(PageRequest(PageIndex(page), limit)) <==> limit == 1)
  {
    if page == INT_MIN {
      WrapStep(INT_MAX);
      if limit >= 2 {
        assert INT_MAX * limit >= INT_MAX * 2;
      }
    }
  }
}

=== FILE: jwt_token_filter.dfy ===
/** `JwtTokenFilter.doFilterInternal`: authenticate the request from its bearer token when the
    token is present and valid and names a known user, swallow any failure on the way, and pass
    the request down the filter chain exactly once. Token parsing and signature checks belong to
    the token provider and are taken as given functions. */
module JwtTokenFilter {
  import opened Wrappers

  /** The parts of an HTTP request the filter looks at: the `Authorization` header (which the
      token provider reads) and the remote address (recorded in the authentication details). */
  datatype Request = Request(authorization: Option<string>, remoteAddress: string)

  datatype UserDetails = UserDetails(username: string, password: string, authorities: seq<string>)

  /** A `UsernamePasswordAuthenticationToken`: principal, its authorities, request details. */
  datatype Authentication = Authentication(principal: UserDetails, authorities: seq<string>,
                                           remoteAddress: string)

  /** The token provider's three operations, each of which may throw. */
  datatype TokenProvider = TokenProvider(
    resolve: Request -> Attempt<Option<string>>,
    validate: string -> Attempt<bool>,
    usernameOf: string -> Attempt<string>)

  /** The username the filter goes on to look up: only when a token is resolved, validates to
      `true`, and yields a username, all without throwing. */
  function LookupName(tp: TokenProvider, request: Request): (r: Option<string>)
    ensures r.Some? <==>
              && tp.resolve(request).Returned? && tp.resolve(request).value.Some?
              && tp.validate(tp.resolve(request).value.value) == Returned(true)
              && tp.usernameOf(tp.resolve(request).value.value).Returned?
    ensures r.Some? ==> r.value == tp.usernameOf(tp.resolve(request).value.value).value
  {
    match tp.resolve(request)
    case Threw(_) => None
    case Returned(None) => None
    case Returned(Some(token)) =>
      if tp.validate(token) != Returned(true) then None
      else
        match tp.usernameOf(token)
        case Threw(_) => None
        case Returned(name) => Some(name)
  }

  /** The authentication the filter installs, given what the user lookup answers: present only
      when the lookup happens and returns a user, and then built from that user. */
  function Installed(tp: TokenProvider, directory: string -> Attempt<Option<UserDetails>>,
                     request: Request): (r: Option<Authentication>)
    ensures r.Some? <==>
              LookupName(tp, request).Some? &&
              directory(LookupName(tp, request).value).Returned? &&
              directory(LookupName(tp, request).value).value.Some?
    ensures r.Some? ==>
              var user := directory(LookupName(tp, request).value).value.value;
              r.value == Authentication(user, user.authorities, request.remoteAddress)
  {
    match LookupName(tp, request)
    case None => None
    case Some(name) =>
      match directory(name)
      case Threw(_) => None
      case Returned(None) => None
      case Returned(Some(user)) => Some(Authentication(user, user.authorities, request.remoteAddress))
  }

  /** The ambient security context (`SecurityContextHolder.getContext()`). */
  class SecurityContext {
    var authentication: Option<Authentication>

    constructor ()
      ensures authentication == None
    {
      authentication := None;
    }

    method SetAuthentication(a: Authentication)
      modifies this
      ensures authentication == Some(a)
    {
      authentication := Some(a);
    }
  }

  /** `UserDetailsService`, with a record of every username it was asked for. */
  class UserDetailsService {
    const directory: string -> Attempt<Option<UserDetails>>
    var lookups: seq<string>

    constructor (directory: string -> Attempt<Option<UserDetails>>)
      ensures this.directory == directory && lookups == []
    {
      this.directory := directory;
      lookups := [];
    }

    method LoadUserByUsername(name: string) returns (r: Attempt<Option<UserDetails>>)
      modifies this
      ensures r == directory(name)
      ensures lookups == old(lookups) + [name]
    {
      lookups := lookups + [name];
      r := directory(name);
    }
  }

  /** The rest of the filter chain, with a record of every request passed on to it. */
  class FilterChain {
    var forwarded: seq<Request>

    constructor ()
      ensures forwarded == []
    {
      forwarded := [];
    }

    method DoFilter(request: Request)
      modifies this
      ensures forwarded == old(forwarded) + [request]
    {
      forwarded := forwarded + [request];
    }
  }

  class JwtTokenFilter {
    const provider: TokenProvider
    const userDetailsService: UserDetailsService

    constructor (provider: TokenProvider, userDetailsService: UserDetailsService)
      ensures this.provider == provider && this.userDetailsService == userDetailsService
    {
      this.provider := provider;
      this.userDetailsService := userDetailsService;
    }

    /** The chain sees the request exactly once; the user lookup happens only for a valid
        token; the context changes only on the all-good path, and then holds the user loaded for
        the token's subject. */
    method DoFilterInternal(request: Request, context: SecurityContext, chain: FilterChain)
      modifies context, chain, userDetailsService
      ensures chain.forwarded == old(chain.forwarded) + [request]
      ensures userDetailsService.lookups ==
                old(userDetailsService.lookups) +
                (if LookupName(provider, request).Some? then [LookupName(provider, request).value] else [])
      ensures context.authentication ==
                if Installed(provider, userDetailsService.directory, request).Some?
                then Installed(provider, userDetailsService.directory, request)
                else old(context.authentication)
    {
      // try { ... } catch (Exception ex) { log }: every failure below ends the block quietly
      var resolved := provider.resolve(request);
      if resolved.Returned? && resolved.value.Some? {
        var token := resolved.value.value;
        var valid := provider.validate(token);
        if valid == Returned(true) {
          var username := provider.usernameOf(token);
          if username.Returned? {
            var loaded := userDetailsService.LoadUserByUsername(username.value);
            if loaded.Returned? && loaded.value.Some? {
              var user := loaded.value.value;
              context.SetAuthentication(Authentication(user, user.authorities, request.remoteAddress));
            }
          }
        }
      }
      chain.DoFilter(request);
    }
  }
}

=== FILE: popular_posts.dfy ===
/** The popularity ranking of `PostService`: a stable sort of posts by descending weighted score.
    The posts handed in are those the repository returns for the period (today, this week);
    the clock that picks the period is outside the model. */
module PopularPosts {
  import opened JavaLang
  import opened Entities

  /** The weights of the two rankings. */
  const TODAY_WEIGHT: real := 1.5
  const WEEK_WEIGHT: real := 1.2

  /** The integer part of `calculateScore`: views + 2 * likes - dislikes, in Java `int`
      arithmetic. */
  function Score(p: Post): (r: int)
  {
    Wrap(p.viewCount + 2 * p.likeCount - p.dislikeCount)
  }

  /** Evaluating the expression one Java operation at a time (`likeCount * 2`, then `+`, then
      `-`, each wrapping) gives the same `int` as `Score`. */
  lemma {:induction false} ScoreStepwise(p: Post)
    ensures Score(p) == Wrap(Wrap(p.viewCount + Wrap(p.likeCount * 2)) - p.dislikeCount)
  {
    WrapShift(p.likeCount * 2, p.viewCount);
    WrapShift(p.viewCount + 2 * p.likeCount, -p.dislikeCount);
  }

  /** `calculateScore`: the score multiplied by the period's weight. */
  function Weighted(p: Post, w: real): (r: real)
  {
    Score(p) as real * w
  }

  /** With a positive weight, comparing weighted scores is comparing integer scores. */
  lemma WeightedOrder(a: Post, b: Post, w: real)
    requires w > 0.0
    ensures Weighted(a, w) >= Weighted(b, w) <==> Score(a) >= Score(b)
  {
    if Score(a) >= Score(b) {
      assert Weighted(a, w) - Weighted(b, w) == (Score(a) - Score(b)) as real * w;
    }
    if Weighted(a, w) >= Weighted(b, w) {
      assert (Score(a) - Score(b)) as real * w >= 0.0;
    }
  }

  /** Non-increasing integer score. */
  ghost predicate Descending(s: seq<Post>)
  {
    forall i, j :: 0 <= i < j < |s| ==> Score(s[i]) >= Score(s[j])
  }

  /** The posts of `s` whose score is `k`, in their order in `s`. */
  function WithScore(s: seq<Post>, k: int): (r: seq<Post>)
  {
    if |s| == 0 then [] else (if Score(s[0]) == k then [s[0]] else []) + WithScore(s[1..], k)
  }

  /** One step of the stable sort: `x` goes in front of the first post it does not rank below,
      hence ahead of every post with the same weighted score. */
  function Insert(x: Post, l: seq<Post>, w: real): (r: seq<Post>)
    ensures multiset(r) == multiset(l) + multiset{x}
    ensures forall i :: 0 <= i < |r| ==> r[i] == x || r[i] in l
  {
    if |l| == 0 then [x]
    else if Weighted(x, w) >= Weighted(l[0], w) then [x] + l
    else
      var rest := Insert(x, l[1..], w);
      assert l == [l[0]] + l[1..];
      [l[0]] + rest
  }

  /** Inserting into a descending list keeps it descending. */
  lemma {:induction false} InsertDescending(x: Post, l: seq<Post>, w: real)
    requires w > 0.0 && Descending(l)
    ensures Descending(Insert(x, l, w))
  {
    if |l| > 0 {
      WeightedOrder(x, l[0], w);
      if Weighted(x, w) < Weighted(l[0], w) {
        InsertDescending(x, l[1..], w);
        var rest := Insert(x, l[1..], w);
        assert forall i :: 0 <= i < |rest| ==> Score(l[0]) >= Score(rest[i]);
      }
    }
  }

  /** Inserting `x` places it ahead of every post with its score, and leaves the order among
      the other posts with any score as it was. */
  lemma {:induction false} InsertStable(x: Post, l: seq<Post>, w: real, k: int)
    requires w > 0.0
    ensures WithScore(Insert(x, l, w), k) == (if Score(x) == k then [x] else []) + WithScore(l, k)
  {
    if |l| > 0 && Weighted(x, w) < Weighted(l[0], w) {
      InsertStable(x, l[1..], w, k);
      InsertStableBehind(x, l, w, k);
    } else {
      WithScoreCons(x, l, k);
    }
  }

  /** The step of `InsertStable` where `x` ranks below the head and goes behind it. */
  lemma InsertStableBehind(x: Post, l: seq<Post>, w: real, k: int)
    requires w > 0.0 && |l| > 0 && Weighted(x, w) < Weighted(l[0], w)
    requires WithScore(Insert(x, l[1..], w), k) == (if Score(x) == k then [x] else []) + WithScore(l[1..], k)
    ensures WithScore(Insert(x, l, w), k) == (if Score(x) == k then [x] else []) + WithScore(l, k)
  {
    WeightedOrder(x, l[0], w);
    var tail := l[1..];
    assert l == [l[0]] + tail;
    var ins := Insert(x, tail, w);
    assert Insert(x, l, w) == [l[0]] + ins;
    WithScoreCons(l[0], ins, k);
    WithScoreCons(l[0], tail, k);
    if Score(x) == k {
      assert Score(l[0]) != k;
      assert WithScore(Insert(x, l, w), k) == WithScore(ins, k);
      assert WithScore(l, k) == WithScore(tail, k);
    } else {
      assert WithScore(ins, k) == WithScore(tail, k);
    }
  }

  lemma WithScoreCons(a: Post, s: seq<Post>, k: int)
    ensures WithScore([a] + s, k) == (if Score(a) == k then [a] else []) + WithScore(s, k)
  {
    assert ([a] + s)[1..] == s;
  }

  /** `calculatePopularPosts`: the stable sort by descending weighted score. With a positive
      weight the result is a permutation of the input, ordered by non-increasing score, and posts
      with equal scores keep their input order. */
  function Rank(s: seq<Post>, w: real): (r: seq<Post>)
    ensures multiset(r) == multiset(s)
    ensures w > 0.0 ==> Descending(r)
    ensures w > 0.0 ==> forall k :: WithScore(r, k) == WithScore(s, k)
  {
    if |s| == 0 then []
    else
      var rest := Rank(s[1..], w);
      assert s == [s[0]] + s[1..];
      if w > 0.0 then
        InsertDescending(s[0], rest, w);
        InsertStableAll(s[0], rest, w);
        Insert(s[0], rest, w)
      else
        Insert(s[0], rest, w)
  }

  lemma InsertStableAll(x: Post, l: seq<Post>, w: real)
    requires w > 0.0
    ensures forall k :: WithScore(Insert(x, l, w), k) == (if Score(x) == k then [x] else []) + WithScore(l, k)
  {
    forall k {
      InsertStable(x, l, w, k);
    }
  }

  /** `getTodayPopularPosts` on the posts created since the start of the day. */
  function TodayPopular(posts: seq<Post>): (r: seq<Post>)
    ensures multiset(r) == multiset(posts) && Descending(r)
    ensures forall k :: WithScore(r, k) == WithScore(posts, k)
  {
    Rank(posts, TODAY_WEIGHT)
  }

  /** `getWeekPopularPosts` on the posts created since the start of the week. */
  function WeekPopular(posts: seq<Post>): (r: seq<Post>)
    ensures multiset(r) == multiset(posts) && Descending(r)
    ensures forall k :: WithScore(r, k) == WithScore(posts, k)
  {
    Rank(posts, WEEK_WEIGHT)
  }

  /** Any positive weight gives the same ranking as the bare integer score: the two periods
      differ only in which posts they rank. */
  lemma {:induction false} RankIgnoresWeight(s: seq<Post>, w: real)
    requires w > 0.0
    ensures Rank(s, w) == Rank(s, 1.0)
  {
    if |s| > 0 {
      RankIgnoresWeight(s[1..], w);
      InsertIgnoresWeight(s[0], Rank(s[1..], 1.0), w);
    }
  }

  lemma {:induction false} InsertIgnoresWeight(x: Post, l: seq<Post>, w: real)
    requires w > 0.0
    ensures Insert(x, l, w) == Insert(x, l, 1.0)
  {
    if |l| > 0 {
      WeightedOrder(x, l[0], w);
      WeightedOrder(x, l[0], 1.0);
      InsertIgnoresWeight(x, l[1..], w);
    }
  }
}

=== FILE: post_controller.dfy ===
/** `PostController`: how each post endpoint turns the caller's identity and the service's
    answer (given as a value, or as a function of the arguments the handler passes) into a
    status code and a JSON body. The controller keeps no state. */
module PostController {
  import opened Wrappers
  import opened JavaLang
  import opened Entities
  import opened Http
  import PopularPosts

  /** The JSON bodies the handlers build with `Map.of`, plus the framework's own error response
      for an exception no handler catches. */
  datatype Body =
    | Message(success: bool, message: string)
    | Created(postId: int, message: string)
    | PostPage(currentPage: int, totalPages: int, totalPosts: int, posts: seq<Post>)
    | OnePost(post: Post)
    | Posts(posts: seq<Post>)
    | ServerError

  const POST_NOT_FOUND: string := "Post not found"
  const CREATED: string := "Post created successfully"
  const CREATE_FAILED: string := "Server error while creating the post"
  const TODAY_FAILED: string := "Server error while fetching today's popular posts"
  const WEEK_FAILED: string := "Server error while fetching this week's popular posts"
  const UPDATED: string := "Post updated successfully"
  const UPDATE_REFUSED: string := "Post not found or not authorized"
  const UPDATE_FAILED: string := "Server error while updating the post"
  const DELETED: string := "Post deleted successfully"
  const DELETE_REFUSED: string := "Post could not be deleted"

  /** The handlers that catch only `RuntimeException`: its message goes back with 400; anything
      else escapes to the framework, which answers 500. */
  function RuntimeFailure(f: Failure): (r: Response<Body>)
    ensures f.RuntimeException? ==> r == Response(400, Message(false, f.message))
    ensures f.CheckedException? ==> r == Response(500, ServerError)
  {
    match f
    case RuntimeException(m) => Response(400, Message(false, m))
    case CheckedException(_) => Response(500, ServerError)
  }

  /** The four reaction endpoints. */
  datatype ReactionOp = Like | Unlike | Dislike | Undislike

  datatype Verb = POST | DELETE

  /** The `(isLike, isAdd)` flags each route passes: `/like` and `/dislike` choose the table,
      POST adds and DELETE removes. */
  function RouteFlags(verb: Verb, path: string): (r: Option<(bool, bool)>)
  {
    if path == "/like" then Some((true, verb == POST))
    else if path == "/dislike" then Some((false, verb == POST))
    else None
  }

  /** The service operation `handleLikeOrDislike` calls for a pair of flags. */
  function Dispatch(isLike: bool, isAdd: bool): (r: ReactionOp)
  {
    if isLike then (if isAdd then Like else Unlike)
    else (if isAdd then Dislike else Undislike)
  }

  /** The flags that select an operation. */
  function Flags(op: ReactionOp): (bool, bool)
  {
    match op
    case Like => (true, true)
    case Unlike => (true, false)
    case Dislike => (false, true)
    case Undislike => (false, false)
  }

  /** `Dispatch` and `Flags` are inverse: each flag pair reaches one operation and each
      operation is reached by one flag pair. */
  lemma DispatchInverse(isLike: bool, isAdd: bool, op: ReactionOp)
    ensures Flags(Dispatch(isLike, isAdd)) == (isLike, isAdd)
    ensures Dispatch(Flags(op).0, Flags(op).1) == op
  {
  }

  /** Each route reaches the operation its verb and path name. */
  lemma RoutesReachTheirOperation(verb: Verb, path: string)
    ensures RouteFlags(verb, path).Some? <==> path == "/like" || path == "/dislike"
    ensures RouteFlags(verb, path).Some? ==>
              Dispatch(RouteFlags(verb, path).value.0, RouteFlags(verb, path).value.1) ==
                if path == "/like" then (if verb == POST then Like else Unlike)
                else (if verb == POST then Dislike else Undislike)
  {
  }

  function SuccessMessage(op: ReactionOp): (r: string)
  {
    match op
    case Like => "Post liked successfully"
    case Unlike => "Post like removed successfully"
    case Dislike => "Post disliked successfully"
    case Undislike => "Post dislike removed successfully"
  }

  function ConflictMessage(op: ReactionOp): (r: string)
  {
    match op
    case Like => "Post already liked by user"
    case Unlike => "Post not liked by user"
    case Dislike => "Post already disliked by user"
    case Undislike => "Post not disliked by user"
  }

  /** `handleLikeOrDislike`: `service(op, userId)` is what the dispatched service method answers.
      True gives 200 and false 409, each with the message for that operation; a
      `RuntimeException` from the token lookup or the service gives 400 with its message. */
  function HandleLikeOrDislike(userId: Attempt<int>, isLike: bool, isAdd: bool,
                               service: (ReactionOp, int) -> Attempt<bool>): (r: Response<Body>)
    ensures userId.Threw? ==> r == RuntimeFailure(userId.failure)
    ensures userId.Returned? ==>
              var outcome := service(Dispatch(isLike, isAdd), userId.value);
              && (outcome == Returned(true) ==> r == Response(200, Message(true, SuccessMessage(Dispatch(isLike, isAdd)))))
              && (outcome == Returned(false) ==> r == Response(409, Message(false, ConflictMessage(Dispatch(isLike, isAdd)))))
              && (outcome.Threw? ==> r == RuntimeFailure(outcome.failure))
  {
    match userId
    case Threw(f) => RuntimeFailure(f)
    case Returned(uid) =>
      var op := Dispatch(isLike, isAdd);
      match service(op, uid)
      case Threw(f) => RuntimeFailure(f)
      case Returned(success) =>
        if success then Response(200, Message(true, SuccessMessage(op)))
        else Response(409, Message(false, ConflictMessage(op)))
  }

  /** Exactly one service operation matters: two services that agree on the dispatched
      operation give the same response, whatever they would answer for the other three. */
  lemma OnlyDispatchedOperationMatters(userId: Attempt<int>, isLike: bool, isAdd: bool,
                                       s1: (ReactionOp, int) -> Attempt<bool>, s2: (ReactionOp, int) -> Attempt<bool>)
    requires userId.Returned? ==> s1(Dispatch(isLike, isAdd), userId.value) == s2(Dispatch(isLike, isAdd), userId.value)
    ensures HandleLikeOrDislike(userId, isLike, isAdd, s1) == HandleLikeOrDislike(userId, isLike, isAdd, s2)
  {
  }

  /** The status tells the outcome: 200 exactly for true, 409 exactly for false, 400 exactly for a
      runtime exception. */
  lemma ReactionStatusIff(userId: Attempt<int>, isLike: bool, isAdd: bool, service: (ReactionOp, int) -> Attempt<bool>)
    ensures var r := HandleLikeOrDislike(userId, isLike, isAdd, service);
            var outcome := if userId.Threw? then Threw(userId.failure) else service(Dispatch(isLike, isAdd), userId.value);
            && (r.status == 200 <==> outcome == Returned(true))
            && (r.status == 409 <==> outcome == Returned(false))
            && (r.status == 400 <==> outcome.Threw? && outcome.failure.RuntimeException?)
  {
  }

  /** `createPost`: 201 with the new id; an `IOException` from storing the photos gives 500, a
      `RuntimeException` (unknown user, bad header) gives 400 with its message. */
  function CreatePost(userId: Attempt<int>, create: int -> Attempt<Post>): (r: Response<Body>)
    ensures r.status == 201 <==> userId.Returned? && create(userId.value).Returned?
    ensures r.status == 201 ==> r.body == Created(create(userId.value).value.id, CREATED)
    ensures userId.Threw? && userId.failure.RuntimeException? ==> r == Response(400, Message(false, userId.failure.message))
    ensures userId.Returned? && create(userId.value).Threw? ==>
              r == match create(userId.value).failure
                   case CheckedException(_) => Response(500, Message(false, CREATE_FAILED))
                   case RuntimeException(m) => Response(400, Message(false, m))
  {
    var outcome := if userId.Threw? then Threw(userId.failure) else create(userId.value);
    match outcome
    case Returned(post) => Response(201, Created(post.id, CREATED))
    case Threw(CheckedException(_)) => Response(500, Message(false, CREATE_FAILED))
    case Threw(RuntimeException(m)) => Response(400, Message(false, m))
  }

  /** `getAllPosts`: page `page` of `limit` posts over the posts in repository order. A page
      index or size `PageRequest.of` rejects, and an offset the repository refuses, escape as
      a 500. */
  function GetAllPosts(posts: seq<Post>, page: int, limit: int): (r: Response<Body>)
    requires IsInt(page)
    ensures r.status == 200 <==>
              (page >= 1 || page == INT_MIN) && limit >= 1 && OffsetFits(PageRequest(PageIndex(page), limit))
    ensures r.status != 200 ==> r == Response(500, ServerError)
    ensures r.status == 200 ==>
              && r.body.PostPage?
              && r.body.currentPage == page
              && r.body.totalPosts == |posts|
              && r.body.totalPages == PageCount(|posts|, limit)
              && r.body.posts == PageOf(posts, PageRequest(PageIndex(page), limit)).content
  {
    PageNumberRoundTrip(posts, page, limit);
    match PageRequestOf(PageIndex(page), limit)
    case Threw(_) => Response(500, ServerError)
    case Returned(request) =>
      if !OffsetFits(request) then Response(500, ServerError)
      else
        var p := PageOf(posts, request);
        Response(200, PostPage(CurrentPage(p), p.totalPages, p.totalElements, p.content))
  }

  /** `getPostById`: 200 with the post, or 404 "Post not found". */
  function GetPostById(found: Option<Post>): (r: Response<Body>)
    ensures r.status == 200 <==> found.Some?
    ensures found.Some? ==> r.body == OnePost(found.value)
    ensures found.None? ==> r == Response(404, Message(false, POST_NOT_FOUND))
  {
    match found
    case Some(post) => Response(200, OnePost(post))
    case None => Response(404, Message(false, POST_NOT_FOUND))
  }

  /** `getTodayPopularPosts` and `getWeekPopularPosts`: `recent` is what the repository returns
      for the period (or the exception it throws). The body lists the same posts, ranked by
      descending score, ties in repository order; any exception gives 500 with the period's
      message. */
  function PopularPostsResponse(today: bool, recent: Attempt<seq<Post>>): (r: Response<Body>)
    ensures r.status == 200 <==> recent.Returned?
    ensures r.status == 200 ==>
              && r.body.Posts?
              && multiset(r.body.posts) == multiset(recent.value)
              && PopularPosts.Descending(r.body.posts)
              && forall k :: PopularPosts.WithScore(r.body.posts, k) == PopularPosts.WithScore(recent.value, k)
    ensures recent.Threw? ==> r == Response(500, Message(false, if today then TODAY_FAILED else WEEK_FAILED))
  {
    match recent
    case Threw(_) => Response(500, Message(false, if today then TODAY_FAILED else WEEK_FAILED))
    case Returned(posts) =>
      Response(200, Posts(if today then PopularPosts.TodayPopular(posts) else PopularPosts.WeekPopular(posts)))
  }

  /** `updatePost`: true gives 200, false 404; an `IOException` 500, a `RuntimeException` 400
      with its message (a missing post and a non-owner both arrive this way). */
  function UpdatePost(userId: Attempt<int>, update: int -> Attempt<bool>): (r: Response<Body>)
    ensures var outcome := if userId.Threw? then Threw(userId.failure) else update(userId.value);
            && (r.status == 200 <==> outcome == Returned(true))
            && (outcome == Returned(true) ==> r.body == Message(true, UPDATED))
            && (outcome == Returned(false) ==> r == Response(404, Message(false, UPDATE_REFUSED)))
            && (outcome.Threw? && outcome.failure.CheckedException? ==> r == Response(500, Message(false, UPDATE_FAILED)))
            && (outcome.Threw? && outcome.failure.RuntimeException? ==> r == Response(400, Message(false, outcome.failure.message)))
  {
    var outcome := if userId.Threw? then Threw(userId.failure) else update(userId.value);
    match outcome
    case Returned(true) => Response(200, Message(true, UPDATED))
    case Returned(false) => Response(404, Message(false, UPDATE_REFUSED))
    case Threw(CheckedException(_)) => Response(500, Message(false, UPDATE_FAILED))
    case Threw(RuntimeException(m)) => Response(400, Message(false, m))
  }

  /** `deletePost`: true gives 200, false 409, a `RuntimeException` 400 with its message. */
  function DeletePost(userId: Attempt<int>, delete: int -> Attempt<bool>): (r: Response<Body>)
    ensures var outcome := if userId.Threw? then Threw(userId.failure) else delete(userId.value);
            && (r.status == 200 <==> outcome == Returned(true))
            && (outcome == Returned(true) ==> r.body == Message(true, DELETED))
            && (outcome == Returned(false) ==> r == Response(409, Message(false, DELETE_REFUSED)))
            && (outcome.Threw? ==> r == RuntimeFailure(outcome.failure))
  {
    var outcome := if userId.Threw? then Threw(userId.failure) else delete(userId.value);
    match outcome
    case Returned(true) => Response(200, Message(true, DELETED))
    case Returned(false) => Response(409, Message(false, DELETE_REFUSED))
    case Threw(f) => RuntimeFailure(f)
  }
}

=== FILE: post_service.dfy ===
/** `PostService`: posts, their photos, their reactions and their view counter. Each public
    operation is one transaction: when it throws, the database is left as it was. */
module PostService {
  import opened Wrappers
  import opened JavaLang
  import opened Entities
  import opened Repositories

  const POST_NOT_FOUND: string := "Post not found"
  const USER_NOT_FOUND: string := "User not found"
  const UNAUTHORIZED: string := "Unauthorized"

  /** Photo i (0-based) of the list built from `fileNames` is served from `/uploads/<name i>`
      and carries `photoOrder` i + 1. */
  ghost predicate NumberedPhotos(photos: seq<PostPhoto>, fileNames: seq<string>)
  {
    |photos| == |fileNames| &&
    forall i :: 0 <= i < |fileNames| ==> photos[i] == PostPhoto(UPLOADS_PREFIX + fileNames[i], i + 1)
  }

  /** The loop shared by `createPost` and `updatePost`: one photo per stored file, numbered from 1
      in upload order. File storage itself is outside the model; its results are `fileNames`. */
  method BuildPhotos(fileNames: seq<string>) returns (photos: seq<PostPhoto>)
    ensures NumberedPhotos(photos, fileNames)
  {
    photos := [];
    var order := 1;
    for i := 0 to |fileNames|
      invariant order == i + 1
      invariant NumberedPhotos(photos, fileNames[..i])
    {
      photos := photos + [PostPhoto(UPLOADS_PREFIX + fileNames[i], order)];
      order := order + 1;
    }
  }

  class PostService {
    const db: Database

    constructor (db: Database)
      ensures this.db == db
    {
      this.db := db;
    }

    ghost predicate Valid()
      reads this, db
    {
      db.Consistent()
    }

    /** `createPost`: refused when the author does not exist; otherwise a new post with zero
        counters and the numbered photos is stored under a fresh id. */
    method CreatePost(userId: int, title: string, content: string, fileNames: seq<string>)
      returns (r: Attempt<Post>)
      requires Valid()
      modifies db`posts, db`nextPostId
      ensures Valid()
      ensures FindUserById(db.users, userId).None? ==>
                r == Threw(RuntimeException(USER_NOT_FOUND)) && unchanged(db)
      ensures FindUserById(db.users, userId).Some? ==>
                && r.Returned?
                && r.value.id == old(db.nextPostId) && r.value.id !in old(db.posts)
                && r.value.owner == userId && r.value.title == title && r.value.content == content
                && r.value.likeCount == 0 && r.value.dislikeCount == 0
                && r.value.viewCount == 0 && r.value.commentCount == 0
                && NumberedPhotos(r.value.photos, fileNames)
                && db.posts == old(db.posts)[r.value.id := r.value]
                && db.nextPostId == old(db.nextPostId) + 1
    {
      var user := FindUserById(db.users, userId);
      if user.None? {
        return Threw(RuntimeException(USER_NOT_FOUND));
      }
      var id := db.nextPostId;
      var photos := BuildPhotos(fileNames);
      var post := NewPost(id, userId, title, content, photos);
      assert Holders(db.postLikes, id) == {} && Holders(db.postDislikes, id) == {};
      assert forall c :: c in db.comments ==> db.comments[c].postId < id;
      assert CommentsOf(db.comments, id) == {};
      db.posts := db.posts[id := post];
      db.nextPostId := id + 1;
      r := Returned(post);
    }

    /** `getPostById`: the post, with its view counter raised by one (as a Java `int`). */
    method GetPostById(postId: int) returns (r: Option<Post>)
      requires Valid()
      modifies db`posts
      ensures Valid()
      ensures postId !in old(db.posts) ==> r == None && unchanged(db)
      ensures postId in old(db.posts) ==>
                var p := old(db.posts)[postId];
                && r == Some(p.(viewCount := Wrap(p.viewCount + 1)))
                && db.posts == old(db.posts)[postId := r.value]
    {
      if postId !in db.posts {
        return None;
      }
      var p := db.posts[postId];
      p := p.(viewCount := Wrap(p.viewCount + 1));
      db.posts := db.posts[postId := p];
      r := Some(p);
    }

    /** `likePost`: a duplicate like is refused with `false`; a missing post or user throws;
        otherwise one like row is added and `likeCount` rises by one. */
    method LikePost(postId: int, userId: int) returns (r: Attempt<bool>)
      requires Valid()
      modifies db`posts, db`postLikes
      ensures Valid()
      ensures r == if (postId, userId) in old(db.postLikes) then Returned(false)
                   else if postId !in old(db.posts) then Threw(RuntimeException(POST_NOT_FOUND))
                   else if FindUserById(old(db.users), userId).None? then Threw(RuntimeException(USER_NOT_FOUND))
                   else Returned(true)
      ensures r == Returned(true) ==>
                var p := old(db.posts)[postId];
                && db.postLikes == old(db.postLikes) + {(postId, userId)}
                && db.posts == old(db.posts)[postId := p.(likeCount := Wrap(p.likeCount + 1))]
      ensures r != Returned(true) ==> unchanged(db)
    {
      if (postId, userId) in db.postLikes {
        return Returned(false);
      }
      if postId !in db.posts {
        return Threw(RuntimeException(POST_NOT_FOUND));
      }
      var user := FindUserById(db.users, userId);
      if user.None? {
        return Threw(RuntimeException(USER_NOT_FOUND));
      }
      var p := db.posts[postId];
      HoldersInsert(db.postLikes, postId, userId);
      PostLikesMoved(db.posts, db.postLikes, db.postDislikes, db.postLikes + {(postId, userId)}, postId, 1);
      db.postLikes := db.postLikes + {(postId, userId)};
      db.posts := db.posts[postId := p.(likeCount := Wrap(p.likeCount + 1))];
      r := Returned(true);
    }

    /** `unlikePost`: an absent like is refused with `false`; otherwise the like row is deleted
        and `likeCount` falls by one. If the post itself is gone the call throws and the deletion
        is rolled back. */
    method UnlikePost(postId: int, userId: int) returns (r: Attempt<bool>)
      requires Valid()
      modifies db`posts, db`postLikes
      ensures Valid()
      ensures r == if (postId, userId) !in old(db.postLikes) then Returned(false)
                   else if postId !in old(db.posts) then Threw(RuntimeException(POST_NOT_FOUND))
                   else Returned(true)
      ensures r == Returned(true) ==>
                var p := old(db.posts)[postId];
                && db.postLikes == old(db.postLikes) - {(postId, userId)}
                && db.posts == old(db.posts)[postId := p.(likeCount := Wrap(p.likeCount - 1))]
      ensures r != Returned(true) ==> unchanged(db)
    {
      if (postId, userId) !in db.postLikes {
        return Returned(false);
      }
      if postId !in db.posts {
        return Threw(RuntimeException(POST_NOT_FOUND));
      }
      var p := db.posts[postId];
      HoldersRemove(db.postLikes, postId, userId);
      PostLikesMoved(db.posts, db.postLikes, db.postDislikes, db.postLikes - {(postId, userId)}, postId, -1);
      db.postLikes := db.postLikes - {(postId, userId)};
      db.posts := db.posts[postId := p.(likeCount := Wrap(p.likeCount - 1))];
      r := Returned(true);
    }

    /** `dislikePost`: `likePost` on the dislike table and `dislikeCount`. */
    method DislikePost(postId: int, userId: int) returns (r: Attempt<bool>)
      requires Valid()
      modifies db`posts, db`postDislikes
      ensures Valid()
      ensures r == if (postId, userId) in old(db.postDislikes) then Returned(false)
                   else if postId !in old(db.posts) then Threw(RuntimeException(POST_NOT_FOUND))
                   else if FindUserById(old(db.users), userId).None? then Threw(RuntimeException(USER_NOT_FOUND))
                   else Returned(true)
      ensures r == Returned(true) ==>
                var p := old(db.posts)[postId];
                && db.postDislikes == old(db.postDislikes) + {(postId, userId)}
                && db.posts == old(db.posts)[postId := p.(dislikeCount := Wrap(p.dislikeCount + 1))]
      ensures r != Returned(true) ==> unchanged(db)
    {
      if (postId, userId) in db.postDislikes {
        return Returned(false);
      }
      if postId !in db.posts {
        return Threw(RuntimeException(POST_NOT_FOUND));
      }
      var user := FindUserById(db.users, userId);
      if user.None? {
        return Threw(RuntimeException(USER_NOT_FOUND));
      }
      var p := db.posts[postId];
      HoldersInsert(db.postDislikes, postId, userId);
      PostDislikesMoved(db.posts, db.postLikes, db.postDislikes, db.postDislikes + {(postId, userId)}, postId, 1);
      db.postDislikes := db.postDislikes + {(postId, userId)};
      db.posts := db.posts[postId := p.(dislikeCount := Wrap(p.dislikeCount + 1))];
      r := Returned(true);
    }

    /** `undislikePost`: `unlikePost` on the dislike table and `dislikeCount`. */
    method UndislikePost(postId: int, userId: int) returns (r: Attempt<bool>)
      requires Valid()
      modifies db`posts, db`postDislikes
      ensures Valid()
      ensures r == if (postId, userId) !in old(db.postDislikes) then Returned(false)
                   else if postId !in old(db.posts) then Threw(RuntimeException(POST_NOT_FOUND))
                   else Returned(true)
      ensures r == Returned(true) ==>
                var p := old(db.posts)[postId];
                && db.postDislikes == old(db.postDislikes) - {(postId, userId)}
                && db.posts == old(db.posts)[postId := p.(dislikeCount := Wrap(p.dislikeCount - 1))]
      ensures r != Returned(true) ==> unchanged(db)
    {
      if (postId, userId) !in db.postDislikes {
        return Returned(false);
      }
      if postId !in db.posts {
        return Threw(RuntimeException(POST_NOT_FOUND));
      }
      var p := db.posts[postId];
      HoldersRemove(db.postDislikes, postId, userId);
      PostDislikesMoved(db.posts, db.postLikes, db.postDislikes, db.postDislikes - {(postId, userId)}, postId, -1);
      db.postDislikes := db.postDislikes - {(postId, userId)};
      db.posts := db.posts[postId := p.(dislikeCount := Wrap(p.dislikeCount - 1))];
      r := Returned(true);
    }

    /** `updatePost`: only the author may edit. Title and content are replaced; the photos are
        replaced by a freshly numbered list only when a non-empty list of files is supplied
        (`None` stands for a null list). */
    method UpdatePost(postId: int, userId: int, title: string, content: string,
                      fileNames: Option<seq<string>>)
      returns (r: Attempt<bool>)
      requires Valid()
      modifies db`posts
      ensures Valid()
      ensures postId !in old(db.posts) ==> r == Threw(RuntimeException(POST_NOT_FOUND)) && unchanged(db)
      ensures postId in old(db.posts) && old(db.posts)[postId].owner != userId ==>
                r == Threw(RuntimeException(UNAUTHORIZED)) && unchanged(db)
      ensures postId in old(db.posts) && old(db.posts)[postId].owner == userId ==>
                var q := old(db.posts)[postId];
                && r == Returned(true)
                && postId in db.posts
                && db.posts == old(db.posts)[postId := db.posts[postId]]
                && db.posts[postId] == q.(title := title, content := content, photos := db.posts[postId].photos)
                && (if fileNames.Some? && |fileNames.value| > 0
                    then NumberedPhotos(db.posts[postId].photos, fileNames.value)
                    else db.posts[postId].photos == q.photos)
    {
      if postId !in db.posts {
        return Threw(RuntimeException(POST_NOT_FOUND));
      }
      var p := db.posts[postId];
      if p.owner != userId {
        return Threw(RuntimeException(UNAUTHORIZED));
      }
      p := p.(title := title, content := content);
      if fileNames.Some? && |fileNames.value| > 0 {
        var photos := BuildPhotos(fileNames.value);
        p := p.(photos := photos);
      }
      db.posts := db.posts[postId := p];
      r := Returned(true);
    }

    /** `deletePost`: only the author may delete; the post row is removed. */
    method DeletePost(postId: int, userId: int) returns (r: Attempt<bool>)
      requires Valid()
      modifies db`posts
      ensures Valid()
      ensures postId !in old(db.posts) ==> r == Threw(RuntimeException(POST_NOT_FOUND)) && unchanged(db)
      ensures postId in old(db.posts) && old(db.posts)[postId].owner != userId ==>
                r == Threw(RuntimeException(UNAUTHORIZED)) && unchanged(db)
      ensures postId in old(db.posts) && old(db.posts)[postId].owner == userId ==>
                r == Returned(true) && db.posts == old(db.posts) - {postId}
    {
      if postId !in db.posts {
        return Threw(RuntimeException(POST_NOT_FOUND));
      }
      if db.posts[postId].owner != userId {
        return Threw(RuntimeException(UNAUTHORIZED));
      }
      db.posts := db.posts - {postId};
      r := Returned(true);
    }
  }
}

=== FILE: repositories.dfy ===
/** The relational store behind the repositories: one field per table, and the bookkeeping
    invariant that ties the counters on posts and comments to the rows of the reaction tables. */
module Repositories {
  import opened Wrappers
  import opened JavaLang
  import opened Entities

  /** A row of a reaction table (`post_likes`, `post_dislikes`, `comment_likes`,
      `comment_dislikes`): the pair (target id, user id), unique per table. */
  type Row = (int, int)

  /** The users who hold a reaction of one kind on `target`. */
  function Holders(rows: set<Row>, target: int): (r: set<int>)
  {
    set r | r in rows && r.0 == target :: r.1
  }

  /** Inserting a new row adds exactly one holder to its target and none to any other. */
  lemma HoldersInsert(rows: set<Row>, target: int, user: int)
    requires (target, user) !in rows
    ensures |Holders(rows + {(target, user)}, target)| == |Holders(rows, target)| + 1
    ensures forall t :: t != target ==> Holders(rows + {(target, user)}, t) == Holders(rows, t)
  {
    assert Holders(rows + {(target, user)}, target) == Holders(rows, target) + {user};
  }

  /** Deleting an existing row removes exactly one holder from its target and none from any other. */
  lemma HoldersRemove(rows: set<Row>, target: int, user: int)
    requires (target, user) in rows
    ensures |Holders(rows - {(target, user)}, target)| == |Holders(rows, target)| - 1
    ensures forall t :: t != target ==> Holders(rows - {(target, user)}, t) == Holders(rows, t)
  {
    assert Holders(rows - {(target, user)}, target) == Holders(rows, target) - {user};
  }

  /** Every post's like and dislike counters equal the number of rows for that post, as a
      Java `int` holds it (the counters are `int` columns updated with `+ 1` and `- 1`). */
  ghost predicate PostCountersMatch(posts: map<int, Post>, likes: set<Row>, dislikes: set<Row>)
  {
    forall id :: id in posts ==>
      posts[id].likeCount == Wrap(|Holders(likes, id)|) && posts[id].dislikeCount == Wrap(|Holders(dislikes, id)|)
  }

  /** Post `id` with its `commentCount` set to `n`; every other post as it was. */
  function SetCommentCount(posts: map<int, Post>, id: int, n: int): (r: map<int, Post>)
    requires id in posts
  {
    posts[id := posts[id].(commentCount := n)]
  }

  /** A post's `commentCount` is not one of its reaction counters: setting it keeps the post
      counters matching and the post under its own id. */
  lemma CommentCountIsSeparate(posts: map<int, Post>, likes: set<Row>, dislikes: set<Row>, id: int, n: int)
    requires PostCountersMatch(posts, likes, dislikes) && id in posts
    ensures PostCountersMatch(SetCommentCount(posts, id, n), likes, dislikes)
  {
  }

  /** Every comment's like and dislike counters equal the number of rows for that comment. */
  ghost predicate CommentCountersMatch(comments: map<int, Comment>, likes: set<Row>, dislikes: set<Row>)
  {
    forall id :: id in comments ==>
      comments[id].likeCount == Wrap(|Holders(likes, id)|) && comments[id].dislikeCount == Wrap(|Holders(dislikes, id)|)
  }

  /** When one post's like rows change by `d` and no other post's do, moving that post's
      `likeCount` by `d` (as a Java `int`) keeps the post counters matching. */
  lemma {:induction false} PostLikesMoved(posts: map<int, Post>, likes: set<Row>, dislikes: set<Row>,
                                          likes': set<Row>, id: int, d: int)
    requires PostCountersMatch(posts, likes, dislikes) && id in posts
    requires |Holders(likes', id)| == |Holders(likes, id)| + d
    requires forall t :: t != id ==> Holders(likes', t) == Holders(likes, t)
    ensures PostCountersMatch(posts[id := posts[id].(likeCount := Wrap(posts[id].likeCount + d))], likes', dislikes)
  {
    WrapShift(|Holders(likes, id)|, d);
  }

  /** The same for dislike rows and `dislikeCount`. */
  lemma {:induction false} PostDislikesMoved(posts: map<int, Post>, likes: set<Row>, dislikes: set<Row>,
                                             dislikes': set<Row>, id: int, d: int)
    requires PostCountersMatch(posts, likes, dislikes) && id in posts
    requires |Holders(dislikes', id)| == |Holders(dislikes, id)| + d
    requires forall t :: t != id ==> Holders(dislikes', t) == Holders(dislikes, t)
    ensures PostCountersMatch(posts[id := posts[id].(dislikeCount := Wrap(posts[id].dislikeCount + d))], likes, dislikes')
  {
    WrapShift(|Holders(dislikes, id)|, d);
  }

  /** When one comment's like rows change by `d` and no other comment's do, moving its
      `likeCount` by `d` keeps the comment counters matching. */
  lemma {:induction false} CommentLikesMoved(comments: map<int, Comment>, likes: set<Row>, dislikes: set<Row>,
                                             likes': set<Row>, id: int, d: int)
    requires CommentCountersMatch(comments, likes, dislikes) && id in comments
    requires |Holders(likes', id)| == |Holders(likes, id)| + d
    requires forall t :: t != id ==> Holders(likes', t) == Holders(likes, t)
    ensures CommentCountersMatch(comments[id := comments[id].(likeCount := Wrap(comments[id].likeCount + d))], likes', dislikes)
  {
    WrapShift(|Holders(likes, id)|, d);
  }

  /** The same for comment dislike rows and `dislikeCount`. */
  lemma {:induction false} CommentDislikesMoved(comments: map<int, Comment>, likes: set<Row>, dislikes: set<Row>,
                                                dislikes': set<Row>, id: int, d: int)
    requires CommentCountersMatch(comments, likes, dislikes) && id in comments
    requires |Holders(dislikes', id)| == |Holders(dislikes, id)| + d
    requires forall t :: t != id ==> Holders(dislikes', t) == Holders(dislikes, t)
    ensures CommentCountersMatch(comments[id := comments[id].(dislikeCount := Wrap(comments[id].dislikeCount + d))], likes, dislikes')
  {
    WrapShift(|Holders(dislikes, id)|, d);
  }

  /** The ids of the comments written on post `postId`. */
  function CommentsOf(comments: map<int, Comment>, postId: int): (r: set<int>)
  {
    set c | c in comments && comments[c].postId == postId
  }

  /** Every post's `commentCount` equals the number of its comments (as a Java `int`). */
  ghost predicate CommentCountsMatch(posts: map<int, Post>, comments: map<int, Comment>)
  {
    forall id :: id in posts ==> posts[id].commentCount == Wrap(|CommentsOf(comments, id)|)
  }

  /** Below 2^31 rows the counters are exact, hence never negative. */
  lemma CountersExact(posts: map<int, Post>, likes: set<Row>, dislikes: set<Row>, id: int)
    requires PostCountersMatch(posts, likes, dislikes) && id in posts
    requires |Holders(likes, id)| <= INT_MAX && |Holders(dislikes, id)| <= INT_MAX
    ensures posts[id].likeCount == |Holders(likes, id)| >= 0
    ensures posts[id].dislikeCount == |Holders(dislikes, id)| >= 0
  {
  }

  /** Replacing a comment by one on the same post changes no post's comment set. */
  lemma CommentsOfReplace(comments: map<int, Comment>, id: int, c: Comment)
    requires id in comments && c.postId == comments[id].postId
    ensures forall p :: CommentsOf(comments[id := c], p) == CommentsOf(comments, p)
  {
  }

  /** Adding a comment under a new id adds it to its own post's set and to no other. */
  lemma CommentsOfAdd(comments: map<int, Comment>, id: int, c: Comment)
    requires id !in comments
    ensures |CommentsOf(comments[id := c], c.postId)| == |CommentsOf(comments, c.postId)| + 1
    ensures forall p :: p != c.postId ==> CommentsOf(comments[id := c], p) == CommentsOf(comments, p)
  {
    assert CommentsOf(comments[id := c], c.postId) == CommentsOf(comments, c.postId) + {id};
  }

  /** Removing a comment removes it from its own post's set and from no other. */
  lemma CommentsOfRemove(comments: map<int, Comment>, id: int)
    requires id in comments
    ensures |CommentsOf(comments - {id}, comments[id].postId)| == |CommentsOf(comments, comments[id].postId)| - 1
    ensures forall p :: p != comments[id].postId ==> CommentsOf(comments - {id}, p) == CommentsOf(comments, p)
  {
    assert CommentsOf(comments - {id}, comments[id].postId) == CommentsOf(comments, comments[id].postId) - {id};
  }

  /** Storing a new comment and raising its post's `commentCount` by one keeps the comment
      counts matching. */
  lemma {:induction false} CommentAdded(posts: map<int, Post>, comments: map<int, Comment>, id: int, c: Comment)
    requires CommentCountsMatch(posts, comments) && id !in comments && c.postId in posts
    ensures CommentCountsMatch(SetCommentCount(posts, c.postId, Wrap(posts[c.postId].commentCount + 1)),
                               comments[id := c])
  {
    CommentsOfAdd(comments, id, c);
    WrapShift(|CommentsOf(comments, c.postId)|, 1);
  }

  /** Deleting a comment and lowering its own post's `commentCount` by one keeps the comment
      counts matching. */
  lemma {:induction false} CommentRemoved(posts: map<int, Post>, comments: map<int, Comment>, id: int)
    requires CommentCountsMatch(posts, comments) && id in comments && comments[id].postId in posts
    ensures CommentCountsMatch(SetCommentCount(posts, comments[id].postId, Wrap(posts[comments[id].postId].commentCount - 1)),
                               comments - {id})
  {
    CommentsOfRemove(comments, id);
    WrapShift(|CommentsOf(comments, comments[id].postId)|, -1);
  }

  /** Deleting a comment keeps the counters of the remaining comments matching. */
  lemma CommentCountersRemove(comments: map<int, Comment>, likes: set<Row>, dislikes: set<Row>, id: int)
    requires CommentCountersMatch(comments, likes, dislikes)
    ensures CommentCountersMatch(comments - {id}, likes, dislikes)
  {
  }

  /** A comment stored under an id that no reaction row mentions starts with matching (zero)
      counters. */
  lemma {:induction false} CommentStored(comments: map<int, Comment>, likes: set<Row>, dislikes: set<Row>, id: int, c: Comment)
    requires CommentCountersMatch(comments, likes, dislikes)
    requires forall r :: r in likes ==> r.0 != id
    requires forall r :: r in dislikes ==> r.0 != id
    requires c.likeCount == 0 && c.dislikeCount == 0
    ensures CommentCountersMatch(comments[id := c], likes, dislikes)
  {
    assert Holders(likes, id) == {} && Holders(dislikes, id) == {};
  }

  /** The unique constraints of `users`: id, email and nickname. */
  ghost predicate UniqueUsers(users: seq<User>)
  {
    forall i, j :: 0 <= i < j < |users| ==>
      users[i].id != users[j].id && users[i].email != users[j].email && users[i].nickname != users[j].nickname
  }

  /** `UserRepository.findById`. */
  function FindUserById(users: seq<User>, id: int): (r: Option<User>)
    ensures r.Some? <==> exists i :: 0 <= i < |users| && users[i].id == id
    ensures r.Some? ==> r.value in users && r.value.id == id
  {
    if |users| == 0 then None
    else if users[0].id == id then Some(users[0])
    else
      var r := FindUserById(users[1..], id);
      assert forall i :: 1 <= i < |users| ==> users[i] == users[1..][i - 1];
      r
  }

  /** The unique constraints on `users`, and every id below the next id to issue. */
  ghost predicate UsersKeyed(users: seq<User>, nextUserId: int)
  {
    UniqueUsers(users) && forall i :: 0 <= i < |users| ==> users[i].id < nextUserId
  }

  /** Each pending verification is stored under its own email. */
  ghost predicate VerificationsKeyed(verifications: map<string, EmailVerification>)
  {
    forall e :: e in verifications ==> verifications[e].email == e
  }

  /** Posts sit under their own ids, below the next id to issue, as do the targets of their
      reaction rows. */
  ghost predicate Keyed(posts: map<int, Post>, likes: set<Row>, dislikes: set<Row>, nextPostId: int)
  {
    && (forall id :: id in posts ==> posts[id].id == id && id < nextPostId)
    && (forall r :: r in likes ==> r.0 < nextPostId)
    && (forall r :: r in dislikes ==> r.0 < nextPostId)
  }

  /** Comments sit under their own ids, below the next id to issue, on posts below the next
      post id; so do the targets of their reaction rows. */
  ghost predicate CommentsKeyed(comments: map<int, Comment>, likes: set<Row>, dislikes: set<Row>,
                                nextCommentId: int, nextPostId: int)
  {
    && (forall id :: id in comments ==>
          comments[id].id == id && id < nextCommentId && comments[id].postId < nextPostId)
    && (forall r :: r in likes ==> r.0 < nextCommentId)
    && (forall r :: r in dislikes ==> r.0 < nextCommentId)
  }

  /** Storing a comment under the next id, on an existing post, keeps the comment keys in order
      once the counter moves past it. */
  lemma CommentsKeyedAdd(comments: map<int, Comment>, likes: set<Row>, dislikes: set<Row>,
                         nextCommentId: int, nextPostId: int, c: Comment)
    requires CommentsKeyed(comments, likes, dislikes, nextCommentId, nextPostId)
    requires c.id == nextCommentId && c.postId < nextPostId
    ensures CommentsKeyed(comments[c.id := c], likes, dislikes, nextCommentId + 1, nextPostId)
  {
  }

  /** Deleting a comment keeps the comment keys in order. */
  lemma CommentsKeyedRemove(comments: map<int, Comment>, likes: set<Row>, dislikes: set<Row>,
                            nextCommentId: int, nextPostId: int, id: int)
    requires CommentsKeyed(comments, likes, dislikes, nextCommentId, nextPostId)
    ensures CommentsKeyed(comments - {id}, likes, dislikes, nextCommentId, nextPostId)
  {
  }

  /** Setting one post's `commentCount` keeps the post keys in order. */
  lemma KeyedCommentCount(posts: map<int, Post>, likes: set<Row>, dislikes: set<Row>, nextPostId: int,
                          id: int, n: int)
    requires Keyed(posts, likes, dislikes, nextPostId) && id in posts
    ensures Keyed(SetCommentCount(posts, id, n), likes, dislikes, nextPostId)
  {
  }

  /** The database: every table the services read or write. Ids are issued by the identity
      counters `next*Id`, which only grow. */
  class Database {
    var users: seq<User>
    var posts: map<int, Post>
    var comments: map<int, Comment>
    var postLikes: set<Row>
    var postDislikes: set<Row>
    var commentLikes: set<Row>
    var commentDislikes: set<Row>
    var verifications: map<string, EmailVerification>
    var nextUserId: int
    var nextPostId: int
    var nextCommentId: int

    /** The reaction bookkeeping invariant, the table constraints and the id discipline. */
    ghost predicate Valid()
      reads this
    {
      && PostCountersMatch(posts, postLikes, postDislikes)
      && CommentCountersMatch(comments, commentLikes, commentDislikes)
      && Keyed(posts, postLikes, postDislikes, nextPostId)
      && CommentsKeyed(comments, commentLikes, commentDislikes, nextCommentId, nextPostId)
      && UsersKeyed(users, nextUserId)
      && VerificationsKeyed(verifications)
    }

    /** `Valid` together with the comment-count invariant on posts. */
    ghost predicate Consistent()
      reads this
    {
      Valid() && CommentCountsMatch(posts, comments)
    }

    /** An empty database; identity columns start at 1. */
    constructor ()
      ensures Consistent()
      ensures users == [] && posts == map[] && comments == map[] && verifications == map[]
      ensures postLikes == {} && postDislikes == {} && commentLikes == {} && commentDislikes == {}
    {
      users, posts, comments, verifications := [], map[], map[], map[];
      postLikes, postDislikes, commentLikes, commentDislikes := {}, {}, {}, {};
      nextUserId, nextPostId, nextCommentId := 1, 1, 1;
    }
  }
}

=== FILE: security_config.dfy ===
/** The ordered authorization table of `SecurityConfig.securityFilterChain`: request paths are
    matched against the rules in order, the first rule with a matching pattern decides, and a path
    no rule matches needs an authenticated user. */
module SecurityConfig {
  import opened JavaLang

  datatype Access = PermitAll | Authenticated

  /** A request-matcher pattern: a literal path, or a prefix followed by `/` and a
      double star, which matches the prefix itself and every path below it. */
  datatype Pattern = Exact(path: string) | Subtree(prefix: string)

  datatype Rule = Rule(patterns: seq<Pattern>, access: Access)

  predicate Matches(p: Pattern, path: string)
  {
    match p
    case Exact(x) => path == x
    case Subtree(prefix) => path == prefix || StartsWith(path, prefix + "/")
  }

  predicate MatchesAny(patterns: seq<Pattern>, path: string)
  {
    exists i :: 0 <= i < |patterns| && Matches(patterns[i], path)
  }

  /** The public user endpoints of the first rule. */
  const PUBLIC_USER_PATHS: seq<string> :=
    ["/api/users/register", "/api/users/login", "/api/users/check-email",
     "/api/users/verify-email", "/api/users/check-nickname"]

  /** The rules in declaration order; `anyRequest().authenticated()` is the default of
      `Decide`. The last rule repeats the one before it. */
  const RULES: seq<Rule> := [
    Rule([Exact(PUBLIC_USER_PATHS[0]), Exact(PUBLIC_USER_PATHS[1]), Exact(PUBLIC_USER_PATHS[2]),
          Exact(PUBLIC_USER_PATHS[3]), Exact(PUBLIC_USER_PATHS[4]), Subtree("/api/users/images")],
         PermitAll),
    Rule([Subtree("/api/posts")], Authenticated),
    Rule([Subtree("/api/files")], PermitAll),
    Rule([Subtree("/api/files")], PermitAll)
  ]

  /** First match wins: the access of the first rule with a matching pattern, or
      `Authenticated` when none matches. */
  function Decide(rules: seq<Rule>, path: string): (r: Access)
  {
    if |rules| == 0 then Authenticated
    else if MatchesAny(rules[0].patterns, path) then rules[0].access
    else Decide(rules[1..], path)
  }

  /** `Decide` is the first-match policy: the default when no rule matches, and otherwise the
      access of the earliest matching rule. */
  lemma {:induction false} DecideFirstMatch(rules: seq<Rule>, path: string)
    ensures (forall i :: 0 <= i < |rules| ==> !MatchesAny(rules[i].patterns, path)) ==> Decide(rules, path) == Authenticated
    ensures forall i :: (0 <= i < |rules| && MatchesAny(rules[i].patterns, path) &&
                         (forall j :: 0 <= j < i ==> !MatchesAny(rules[j].patterns, path))) ==>
                          Decide(rules, path) == rules[i].access
  {
    if |rules| > 0 && !MatchesAny(rules[0].patterns, path) {
      var tail := rules[1..];
      DecideFirstMatch(tail, path);
      if forall i :: 0 <= i < |rules| ==> !MatchesAny(rules[i].patterns, path) {
        forall i | 0 <= i < |tail| ensures !MatchesAny(tail[i].patterns, path) {
          assert tail[i] == rules[i + 1];
        }
      }
      forall i | 0 < i < |rules| && MatchesAny(rules[i].patterns, path) &&
                 (forall j :: 0 <= j < i ==> !MatchesAny(rules[j].patterns, path))
        ensures Decide(rules, path) == rules[i].access
      {
        assert rules[i] == tail[i - 1];
        forall j | 0 <= j < i - 1 ensures !MatchesAny(tail[j].patterns, path) {
          assert tail[j] == rules[j + 1];
        }
      }
    }
  }

  /** The access the application demands for `path`. */
  function AccessFor(path: string): (r: Access)
  {
    Decide(RULES, path)
  }

  /** A rule that does not match `path` can be dropped without changing the outcome for it. */
  lemma {:induction false} NonMatchingRuleRedundant(rules: seq<Rule>, i: nat, path: string)
    requires i < |rules| && !MatchesAny(rules[i].patterns, path)
    ensures Decide(rules, path) == Decide(rules[..i] + rules[i + 1..], path)
  {
    if i == 0 {
      assert rules[..0] + rules[1..] == rules[1..];
    } else {
      var dropped := rules[..i] + rules[i + 1..];
      assert dropped[0] == rules[0];
      if !MatchesAny(rules[0].patterns, path) {
        NonMatchingRuleRedundant(rules[1..], i - 1, path);
        assert rules[1..][..i - 1] + rules[1..][i..] == dropped[1..];
      }
    }
  }

  /** A rule whose patterns repeat those of an earlier rule can never decide, so dropping it
      changes no outcome. */
  lemma {:induction false} ShadowedRuleRedundant(rules: seq<Rule>, j: nat, i: nat, path: string)
    requires j < i < |rules| && rules[j].patterns == rules[i].patterns
    ensures Decide(rules, path) == Decide(rules[..i] + rules[i + 1..], path)
  {
    var dropped := rules[..i] + rules[i + 1..];
    assert dropped[0] == rules[0];
    if !MatchesAny(rules[0].patterns, path) {
      if j > 0 {
        ShadowedRuleRedundant(rules[1..], j - 1, i - 1, path);
        assert rules[1..][..i - 1] + rules[1..][i..] == dropped[1..];
      } else {
        NonMatchingRuleRedundant(rules, i, path);
      }
    }
  }

  /** The repeated rule for the `/api/files` subtree changes no outcome. */
  lemma DuplicateFilesRuleRedundant(path: string)
    ensures AccessFor(path) == Decide(RULES[..3], path)
  {
    ShadowedRuleRedundant(RULES, 2, 3, path);
    assert RULES[..3] + RULES[4..] == RULES[..3];
  }

  predicate UnderPrefix(path: string, prefix: string)
  {
    path == prefix || StartsWith(path, prefix + "/")
  }

  /** The table unfolded: rule by rule, in order. */
  lemma AccessTable(path: string)
    ensures AccessFor(path) ==
              if MatchesAny(RULES[0].patterns, path) then PermitAll
              else if MatchesAny(RULES[1].patterns, path) then Authenticated
              else if MatchesAny(RULES[2].patterns, path) || MatchesAny(RULES[3].patterns, path) then PermitAll
              else Authenticated
  {
    var r1 := RULES[1..];
    var r2 := r1[1..];
    var r3 := r2[1..];
    assert r1[0] == RULES[1] && r2[0] == RULES[2] && r3[0] == RULES[3] && r3[1..] == [];
    assert Decide(r3, path) == if MatchesAny(RULES[3].patterns, path) then PermitAll else Authenticated;
    assert Decide(r2, path) == if MatchesAny(RULES[2].patterns, path) then PermitAll else Decide(r3, path);
    assert Decide(r1, path) == if MatchesAny(RULES[1].patterns, path) then Authenticated else Decide(r2, path);
  }

  /** The first rule matches exactly the five public user endpoints and the images subtree. */
  lemma FirstRuleIff(path: string)
    ensures MatchesAny(RULES[0].patterns, path) <==>
              path in PUBLIC_USER_PATHS || UnderPrefix(path, "/api/users/images")
  {
    var r0 := RULES[0].patterns;
    if path in PUBLIC_USER_PATHS {
      var k :| 0 <= k < 5 && PUBLIC_USER_PATHS[k] == path;
      assert Matches(r0[k], path);
    } else if UnderPrefix(path, "/api/users/images") {
      assert Matches(r0[5], path);
    } else {
      forall k | 0 <= k < 5 ensures !Matches(r0[k], path) {
        assert r0[k] == Exact(PUBLIC_USER_PATHS[k]);
      }
    }
  }

  /** The whole table in one statement: a path is public exactly when it is one of the five
      public user endpoints, or lies under `/api/users/images` or under `/api/files`. */
  lemma PublicIff(path: string)
    ensures AccessFor(path) == PermitAll <==>
              path in PUBLIC_USER_PATHS || UnderPrefix(path, "/api/users/images") || UnderPrefix(path, "/api/files")
  {
    AccessTable(path);
    FirstRuleIff(path);
    if UnderPrefix(path, "/api/files") {
      NotUnderBoth(path, "/api/files", "/api/posts", 5);
      assert Matches(RULES[2].patterns[0], path);
    } else {
      assert !MatchesAny(RULES[2].patterns, path) && !MatchesAny(RULES[3].patterns, path);
    }
  }

  /** Paths under two prefixes that differ at position `k` cannot coincide. */
  lemma NotUnderBoth(path: string, a: string, b: string, k: nat)
    requires UnderPrefix(path, a)
    requires k < |a| && k < |b| && a[k] != b[k]
    ensures !UnderPrefix(path, b) && path != b
  {
    assert (a + "/")[k] == a[k];
    assert path[k] == a[k];
    assert (b + "/")[k] == b[k];
  }

  /** The five public user endpoints need no authentication. */
  lemma PublicUserEndpoints()
    ensures forall p :: p in PUBLIC_USER_PATHS ==> AccessFor(p) == PermitAll
  {
    forall p | p in PUBLIC_USER_PATHS {
      PublicIff(p);
    }
  }

  /** Every path under `/api/posts`, the popular and comment routes included, needs an
      authenticated user. */
  lemma PostsAuthenticated(path: string)
    requires UnderPrefix(path, "/api/posts")
    ensures AccessFor(path) == Authenticated
  {
    PublicIff(path);
    forall k | 0 <= k < 5 {
      NotUnderBoth(path, "/api/posts", PUBLIC_USER_PATHS[k], 5);
    }
    NotUnderBoth(path, "/api/posts", "/api/users/images", 5);
    NotUnderBoth(path, "/api/posts", "/api/files", 5);
  }

  /** The account-update endpoint falls through to the default. */
  lemma UpdateAuthenticated()
    ensures AccessFor("/api/users/update") == Authenticated
  {
    PublicIff("/api/users/update");
    NotUnderBoth("/api/users/update", "/api/users/update", "/api/users/images", 11);
    NotUnderBoth("/api/users/update", "/api/users/update", "/api/files", 5);
  }

  /** The account-deletion endpoint falls through to the default. */
  lemma DeleteAuthenticated()
    ensures AccessFor("/api/users/delete") == Authenticated
  {
    PublicIff("/api/users/delete");
    NotUnderBoth("/api/users/delete", "/api/users/delete", "/api/users/images", 11);
    NotUnderBoth("/api/users/delete", "/api/users/delete", "/api/files", 5);
  }
}

=== FILE: user_controller.dfy ===
/** `UserController`: registration, login, the email and nickname checks, email verification,
    profile update and account deletion. The handlers that change data call the `UserService`
    model; the others are functions of what the service answers. JSON parsing, token issuing
    and token parsing are given as values or functions. */
module UserController {
  import opened Wrappers
  import opened JavaLang
  import opened Entities
  import opened Repositories
  import opened Http
  import opened UserService
  import VerificationCodeGenerator

  datatype Body =
    | Message(success: bool, message: string)
    | Registered(userId: int)
    | LoggedIn(token: string, userId: int, email: string, nickname: string, profileImageUrl: Option<string>)
    | Availability(success: bool, available: bool, note: Option<string>)
    | Text(text: string)
    | ServerError

  const INVALID_USER_DATA: string := "Invalid user data"
  const INVALID_CREDENTIALS: string := "Invalid email or password"
  const EMAIL_IN_USE: string := "Email already in use"
  const CODE_SENT: string := "Verification code sent to email"
  const NICKNAME_IN_USE: string := "Nickname already in use"
  const EMAIL_VERIFIED: string := "Email verified successfully"
  const INVALID_CODE: string := "Invalid verification code"
  const USER_UPDATED: string := "User information updated successfully"
  const INVALID_REQUEST: string := "Invalid request data"
  const USER_NOT_FOUND: string := "User not found"
  const USER_DELETED: string := "User account deleted successfully"
  const DELETE_FAILED: string := "Failed to delete user account"

  /** The `User` fields a JSON request body may carry; absent fields are null. */
  datatype UserForm = UserForm(email: Option<string>, password: Option<string>, nickname: Option<string>,
                               profileImageUrl: Option<string>)

  /** `findByEmail` of a request field that may be absent: a null email binds SQL `NULL`, which
      no row equals, so the failed `queryForObject` gives an empty result. */
  function FindByEmailField(users: seq<User>, email: Option<string>): (r: Option<User>)
    ensures email.None? ==> r.None?
    ensures email.Some? ==> r == FindByEmail(users, email.value)
    ensures r.Some? ==> r.value in users && r.value.email == email.value
  {
    if email.Some? then FindByEmail(users, email.value) else None
  }

  /** `registerUser`: unparsable JSON gives 400 with the bare text "Invalid user data"; otherwise
      the user is saved (encoded password, uploaded image URL) and 200 carries the new id.
      `saveUser`'s failures are not caught: a missing password fails in `encode(null)`, a missing
      email or nickname violates its `NOT NULL` column, a taken one its unique constraint, and
      each gives the framework's 500 with nothing stored. */
  method Register(svc: UserService, form: Attempt<UserForm>, fileName: Option<string>)
    returns (r: Response<Body>)
    requires svc.db.Valid()
    modifies svc.db`users, svc.db`nextUserId
    ensures svc.db.Valid()
    ensures form.Threw? ==> r == Response(400, Text(INVALID_USER_DATA)) && unchanged(svc.db)
    ensures form.Returned? && (form.value.email.None? || form.value.password.None? || form.value.nickname.None?) ==>
              r == Response(500, ServerError) && unchanged(svc.db)
    ensures form.Returned? && form.value.email.Some? && form.value.password.Some? && form.value.nickname.Some? ==>
              var f := form.value;
              if ExistsByEmail(old(svc.db.users), f.email.value) || ExistsByNickname(old(svc.db.users), f.nickname.value)
              then r == Response(500, ServerError) && unchanged(svc.db)
              else
                && r == Response(200, Registered(old(svc.db.nextUserId)))
                && svc.db.users == old(svc.db.users) +
                     [User(old(svc.db.nextUserId), f.email.value, svc.encoder.encode(f.password.value), f.nickname.value,
                           if fileName.Some? then Some(UPLOADS_PREFIX + fileName.value) else f.profileImageUrl)]
                && FindByEmail(svc.db.users, f.email.value).Some?
                && FindByEmail(svc.db.users, f.email.value).value.id == old(svc.db.nextUserId)
  {
    if form.Threw? {
      return Response(400, Text(INVALID_USER_DATA));
    }
    var f := form.value;
    if f.email.None? || f.password.None? || f.nickname.None? {
      return Response(500, ServerError);
    }
    var saved := svc.SaveUser(f.email.value, f.password.value, f.nickname.value, f.profileImageUrl, fileName);
    match saved
    case Threw(_) => r := Response(500, ServerError);
    case Returned(u) => r := Response(200, Registered(u.id));
  }

  /** `authenticateUser` as written. `Map.of` rejects a null value, so a user without a profile
      image who logs in correctly gets the framework's 500 instead of 200. A request without a
      password for a registered email fails in `matches(null, …)`, also a 500; an absent email
      finds nobody. */
  function LoginAsWritten(users: seq<User>, matches: (string, string) -> bool, tokenFor: string -> string,
                          email: Option<string>, password: Option<string>): (r: Response<Body>)
    ensures var found := FindByEmailField(users, email);
            r.status == 500 <==>
              && found.Some?
              && (password.None? || (matches(password.value, found.value.password) && found.value.profileImageUrl.None?))
  {
    match FindByEmailField(users, email)
    case Some(user) =>
      if password.None? then Response(500, ServerError)
      else if matches(password.value, user.password) then
        if user.profileImageUrl.None? then Response(500, ServerError)
        else Response(200, LoggedIn(tokenFor(user.email), user.id, user.email, user.nickname, user.profileImageUrl))
      else Response(401, Message(false, INVALID_CREDENTIALS))
    case None => Response(401, Message(false, INVALID_CREDENTIALS))
  }

  /** A registered user without a profile image, with the right password, is refused. */
  lemma LoginAsWrittenRejectsUserWithoutImage()
    ensures var users := [User(1, "a@example.com", "h", "alice", None)];
            var matches := (raw: string, encoded: string) => encoded == "h" && raw == "pw";
            && FindByEmail(users, "a@example.com") == Some(users[0])
            && matches("pw", users[0].password)
            && LoginAsWritten(users, matches, (e: string) => "t", Some("a@example.com"), Some("pw")).status == 500
  {
    var users := [User(1, "a@example.com", "h", "alice", None)];
    assert WithEmail(users, "a@example.com") == [users[0]];
  }

  /** `authenticateUser` with the profile image URL passed on as it is (null when absent):
      200 with a token for the email exactly when the user exists and the password is given and
      matches; a missing password for a registered email still fails in `matches` (500); every
      other failure, unknown email or wrong password, gives the same 401. */
  function Login(users: seq<User>, matches: (string, string) -> bool, tokenFor: string -> string,
                 email: Option<string>, password: Option<string>): (r: Response<Body>)
    ensures var found := FindByEmailField(users, email);
            r.status == 200 <==> found.Some? && password.Some? && matches(password.value, found.value.password)
    ensures r.status == 200 ==>
              var u := FindByEmailField(users, email).value;
              r.body == LoggedIn(tokenFor(email.value), u.id, u.email, u.nickname, u.profileImageUrl)
    ensures r.status == 500 <==> FindByEmailField(users, email).Some? && password.None?
    ensures r.status != 200 && r.status != 500 ==> r == Response(401, Message(false, INVALID_CREDENTIALS))
  {
    match FindByEmailField(users, email)
    case Some(user) =>
      if password.None? then Response(500, ServerError)
      else if matches(password.value, user.password) then
        Response(200, LoggedIn(tokenFor(user.email), user.id, user.email, user.nickname, user.profileImageUrl))
      else Response(401, Message(false, INVALID_CREDENTIALS))
    case None => Response(401, Message(false, INVALID_CREDENTIALS))
  }

  /** The corrected login agrees with the written one wherever the written one does not fail. */
  lemma LoginAgreesWhereWrittenSucceeds(users: seq<User>, matches: (string, string) -> bool,
                                        tokenFor: string -> string, email: Option<string>, password: Option<string>)
    ensures LoginAsWritten(users, matches, tokenFor, email, password).status != 500 ==>
              LoginAsWritten(users, matches, tokenFor, email, password) == Login(users, matches, tokenFor, email, password)
  {
  }

  /** `checkEmail`: a registered email gives 409 and nothing is stored or sent; otherwise a code
      is stored for the email and mailed to it, and 200 reports that. */
  method CheckEmail(svc: UserService, email: string, draws: seq<int>) returns (r: Response<Body>)
    requires svc.db.Valid()
    requires VerificationCodeGenerator.ValidDraws(draws)
    modifies svc.db`verifications, svc.mailer
    ensures svc.db.Valid()
    ensures r.status == 409 <==> ExistsByEmail(svc.db.users, email)
    ensures r.status == 409 ==>
              && r.body == Message(false, EMAIL_IN_USE)
              && svc.db.verifications == old(svc.db.verifications)
              && svc.mailer.sent == old(svc.mailer.sent)
    ensures r.status != 409 ==>
              && r == Response(200, Message(true, CODE_SENT))
              && email in svc.db.verifications
              && svc.db.verifications == old(svc.db.verifications)[email := svc.db.verifications[email]]
              && !svc.db.verifications[email].verified
              && VerificationCodeGenerator.IsCode(svc.db.verifications[email].code)
              && svc.mailer.sent == old(svc.mailer.sent) + [(email, svc.db.verifications[email].code)]
  {
    if ExistsByEmail(svc.db.users, email) {
      return Response(409, Message(false, EMAIL_IN_USE));
    }
    var _ := svc.SendVerificationCode(email, draws);
    r := Response(200, Message(true, CODE_SENT));
  }

  /** `checkNickname`: 409 with `available` false when the nickname is taken, else 200 with
      `available` true. */
  function CheckNickname(users: seq<User>, nickname: string): (r: Response<Body>)
    ensures r.status == 409 <==> exists i :: 0 <= i < |users| && users[i].nickname == nickname
    ensures r.status == 409 ==> r.body == Availability(false, false, Some(NICKNAME_IN_USE))
    ensures r.status != 409 ==> r == Response(200, Availability(true, true, None))
  {
    if ExistsByNickname(users, nickname) then Response(409, Availability(false, false, Some(NICKNAME_IN_USE)))
    else Response(200, Availability(true, true, None))
  }

  /** `verifyEmail`: 200 when the (email, code) pair matches a pending verification, which is
      then marked verified; 400 otherwise, with nothing changed. */
  method VerifyEmail(svc: UserService, email: string, code: string) returns (r: Response<Body>)
    requires svc.db.Valid()
    modifies svc.db`verifications
    ensures svc.db.Valid()
    ensures r.status == 200 <==> email in old(svc.db.verifications) && old(svc.db.verifications)[email].code == code
    ensures r.status == 200 ==>
              && r.body == Message(true, EMAIL_VERIFIED)
              && email in svc.db.verifications
              && svc.db.verifications[email].verified
    ensures r.status != 200 ==>
              r == Response(400, Message(false, INVALID_CODE)) && svc.db.verifications == old(svc.db.verifications)
  {
    var verified := svc.VerifyEmail(email, code);
    if verified {
      r := Response(200, Message(true, EMAIL_VERIFIED));
    } else {
      r := Response(400, Message(false, INVALID_CODE));
    }
  }

  /** Who the token in the `Authorization` header names: the prefix cut and the token parse may
      throw (uncaught by the handlers); an email with no user is `None`. */
  function Caller(header: string, usernameOf: string -> Attempt<string>, users: seq<User>)
    : (r: Attempt<Option<User>>)
    ensures r.Returned? <==> |header| >= BEARER_PREFIX_LENGTH && usernameOf(header[BEARER_PREFIX_LENGTH..]).Returned?
    ensures r.Returned? ==> r.value == FindByEmail(users, usernameOf(header[BEARER_PREFIX_LENGTH..]).value)
  {
    match StripBearer(header)
    case Threw(f) => Threw(f)
    case Returned(token) =>
      match usernameOf(token)
      case Threw(f) => Threw(f)
      case Returned(email) => Returned(FindByEmail(users, email))
  }

  /** The setters `updateUser` applies to the stored user: nickname and password are replaced
      only by fields the request carries; everything else is kept. */
  method MergeUpdates(current: User, updates: UserForm) returns (merged: User)
    ensures merged.id == current.id && merged.email == current.email
    ensures merged.profileImageUrl == current.profileImageUrl
    ensures merged.nickname == if updates.nickname.Some? then updates.nickname.value else current.nickname
    ensures merged.password == if updates.password.Some? then updates.password.value else current.password
  {
    merged := current;
    if updates.nickname.Some? {
      merged := merged.(nickname := updates.nickname.value);
    }
    if updates.password.Some? {
      merged := merged.(password := updates.password.value);
    }
  }

  /** The (nickname, password) arguments `updateUser` passes on as written: the merged user's
      fields, so without a new password it passes the stored, already encoded one. */
  function ServiceArgumentsAsWritten(merged: User): (args: (Option<string>, Option<string>))
    ensures args.0 == Some(merged.nickname) && args.1 == Some(merged.password)
  {
    (Some(merged.nickname), Some(merged.password))
  }

  /** Without a new password the stored hash is encoded once more and stops matching the user's
      password. */
  lemma UpdateAsWrittenReencodesPassword()
    ensures var encoder := PasswordEncoder((raw: string) => "$" + raw, (raw: string, enc: string) => enc == "$" + raw);
            var current := User(1, "a@example.com", encoder.encode("pw"), "alice", None);
            var args := ServiceArgumentsAsWritten(current);
            var encoded := if Present(args.1) then Some(encoder.encode(args.1.value)) else None;
            var stored := UpdatedUser(current, args.0, encoded, None);
            && encoder.matches("pw", current.password)
            && !encoder.matches("pw", stored.password)
  {
    var encoder := PasswordEncoder((raw: string) => "$" + raw, (raw: string, enc: string) => enc == "$" + raw);
    var current := User(1, "a@example.com", encoder.encode("pw"), "alice", None);
    assert |"$" + current.password| != |"$" + "pw"|;
  }

  /** The corrected arguments: the merged nickname, and the request's own password (null when it
      has none), so only a supplied password is encoded. */
  function ServiceArguments(merged: User, updates: UserForm): (args: (Option<string>, Option<string>))
    ensures args.0 == Some(merged.nickname) && args.1 == updates.password
  {
    (Some(merged.nickname), updates.password)
  }

  /** With the corrected arguments the stored password changes only to the encoding of a
      supplied, non-empty password: otherwise it stays, and keeps matching. */
  lemma UpdateKeepsPasswordUnlessGiven(encoder: PasswordEncoder, current: User, updates: UserForm, fileName: Option<string>)
    ensures var args := ServiceArguments(current, updates);
            var encoded := if Present(args.1) then Some(encoder.encode(args.1.value)) else None;
            var stored := UpdatedUser(current, args.0, encoded, fileName);
            && (Present(updates.password) ==> stored.password == encoder.encode(updates.password.value))
            && (!Present(updates.password) ==> stored.password == current.password)
  {
  }

  /** `updateUser`: an unknown caller gives 404 and unparsable JSON 400 (bare text), both with
      nothing changed; otherwise the merged fields go to the service, and the caller's row is
      updated with 200 exactly when no other user holds the new nickname. The service's
      duplicate-nickname failure escapes as 500 with nothing changed. The handler passes the
      corrected `ServiceArguments`; the written code passes `ServiceArgumentsAsWritten`.
      Failures cutting the prefix or parsing the token escape as 500 as well. */
  method UpdateUser(svc: UserService, header: string, usernameOf: string -> Attempt<string>,
                    updates: Attempt<UserForm>, fileName: Option<string>)
    returns (r: Response<Body>)
    requires svc.db.Valid()
    modifies svc.db`users
    ensures svc.db.Valid()
    ensures var caller := Caller(header, usernameOf, old(svc.db.users));
            && (caller.Threw? ==> r == Response(500, ServerError) && unchanged(svc.db))
            && (caller == Returned(None) ==> r == Response(404, Message(false, USER_NOT_FOUND)) && unchanged(svc.db))
            && (caller.Returned? && caller.value.Some? && updates.Threw? ==>
                  r == Response(400, Text(INVALID_USER_DATA)) && unchanged(svc.db))
    ensures r.status == 200 ==>
              && r.body == Message(true, USER_UPDATED)
              && updates.Returned?
              && var current := Caller(header, usernameOf, old(svc.db.users)).value.value;
                 var nickname := if updates.value.nickname.Some? then updates.value.nickname.value else current.nickname;
                 var password := updates.value.password;
                 var encoded := if Present(password) then Some(svc.encoder.encode(password.value)) else None;
                 svc.db.users == UpdateWhereId(old(svc.db.users), current.id, Some(nickname), encoded, fileName)
    ensures var caller := Caller(header, usernameOf, old(svc.db.users));
            caller.Returned? && caller.value.Some? && updates.Returned? ==>
              var current := caller.value.value;
              var nickname := if updates.value.nickname.Some? then updates.value.nickname.value else current.nickname;
              && (r.status == 200 <==> !NicknameTakenByOther(old(svc.db.users), current.id, Some(nickname)))
              && (r.status != 200 ==> r == Response(500, ServerError) && unchanged(svc.db))
    ensures r.status != 200 && r.status != 500 ==> unchanged(svc.db)
  {
    var caller := Caller(header, usernameOf, svc.db.users);
    if caller.Threw? {
      return Response(500, ServerError);
    }
    if caller.value.None? {
      return Response(404, Message(false, USER_NOT_FOUND));
    }
    var current := caller.value.value;
    FoundUserHasId(svc.db.users, current);
    if updates.Threw? {
      return Response(400, Text(INVALID_USER_DATA));
    }
    var merged := MergeUpdates(current, updates.value);
    var args := ServiceArguments(merged, updates.value);
    var outcome, _ := svc.UpdateUser(current.id, args.0, args.1, fileName);
    match outcome
    case Threw(_) => r := Response(500, ServerError);
    case Returned(updated) =>
      if updated {
        r := Response(200, Message(true, USER_UPDATED));
      } else {
        r := Response(400, Message(false, INVALID_REQUEST));
      }
  }

  /** `deleteUser`: an unknown caller gives 404 with nothing changed; otherwise the caller's row
      is deleted and 200 reports it (400 if no row went away). */
  method DeleteUser(svc: UserService, header: string, usernameOf: string -> Attempt<string>)
    returns (r: Response<Body>)
    requires svc.db.Valid()
    modifies svc.db`users
    ensures svc.db.Valid()
    ensures var caller := Caller(header, usernameOf, old(svc.db.users));
            && (caller.Threw? ==> r == Response(500, ServerError) && unchanged(svc.db))
            && (caller == Returned(None) ==> r == Response(404, Message(false, USER_NOT_FOUND)) && unchanged(svc.db))
            && (caller.Returned? && caller.value.Some? ==>
                  && r == Response(200, Message(true, USER_DELETED))
                  && svc.db.users == DeleteWhereId(old(svc.db.users), caller.value.value.id))
  {
    var caller := Caller(header, usernameOf, svc.db.users);
    if caller.Threw? {
      return Response(500, ServerError);
    }
    if caller.value.None? {
      return Response(404, Message(false, USER_NOT_FOUND));
    }
    var user := caller.value.value;
    FoundUserHasId(svc.db.users, user);
    var deleted := svc.DeleteUser(user.id);
    if deleted {
      r := Response(200, Message(true, USER_DELETED));
    } else {
      r := Response(400, Message(false, DELETE_FAILED));
    }
  }

  /** A user found in the table is found again by its id. */
  lemma FoundUserHasId(users: seq<User>, u: User)
    requires u in users
    ensures FindUserById(users, u.id).Some?
  {
    var i :| 0 <= i < |users| && users[i] == u;
    assert users[i].id == u.id;
  }
}

=== FILE: user_service.dfy ===
/** `UserService`: user lookups by plain SQL, registration, profile update and deletion, and
    the email verification flow. The password encoder and the mail sender are external; the
    encoder is a pair of given functions, the mail sender a recorder of sent messages. */
module UserService {
  import opened Wrappers
  import opened JavaLang
  import opened Entities
  import opened Repositories
  import VerificationCodeGenerator

  /** The exception a unique-constraint violation raises; the driver's wording is not modelled. */
  const DUPLICATE_KEY: string := "duplicate key"

  const UPDATE_HEAD: string := "UPDATE users SET updated_at = ?"
  const UPDATE_TAIL: string := " WHERE id = ?"

  /** BCrypt behind Spring's `PasswordEncoder` interface. */
  datatype PasswordEncoder = PasswordEncoder(encode: string -> string, matches: (string, string) -> bool)

  /** The rows of `users` with this email, in table order. */
  function WithEmail(users: seq<User>, email: string): (r: seq<User>)
    ensures forall u :: u in r <==> u in users && u.email == email
    ensures (forall i :: 0 <= i < |users| ==> users[i].email != email) ==> r == []
  {
    if |users| == 0 then []
    else (if users[0].email == email then [users[0]] else []) + WithEmail(users[1..], email)
  }

  /** The rows of `users` with this nickname, in table order. */
  function WithNickname(users: seq<User>, nickname: string): (r: seq<User>)
    ensures forall u :: u in r <==> u in users && u.nickname == nickname
    ensures (forall i :: 0 <= i < |users| ==> users[i].nickname != nickname) ==> r == []
  {
    if |users| == 0 then []
    else (if users[0].nickname == nickname then [users[0]] else []) + WithNickname(users[1..], nickname)
  }

  /** The unique constraints hold on every suffix of the table. */
  lemma UniqueTail(users: seq<User>)
    requires |users| > 0 && UniqueUsers(users)
    ensures UniqueUsers(users[1..])
    ensures forall k :: 0 <= k < |users| - 1 ==>
              users[1..][k].email != users[0].email && users[1..][k].nickname != users[0].nickname
  {
    var tail := users[1..];
    forall i, j | 0 <= i < j < |tail| ensures tail[i].id != tail[j].id {
      assert tail[i] == users[i + 1] && tail[j] == users[j + 1];
    }
    forall k | 0 <= k < |tail| ensures tail[k].email != users[0].email && tail[k].nickname != users[0].nickname {
      assert tail[k] == users[k + 1];
    }
  }

  /** Under the unique constraints at most one row has a given email. */
  lemma {:induction false} AtMostOneWithEmail(users: seq<User>, email: string)
    ensures UniqueUsers(users) ==> |WithEmail(users, email)| <= 1
  {
    if |users| > 0 && UniqueUsers(users) {
      UniqueTail(users);
      AtMostOneWithEmail(users[1..], email);
    }
  }

  /** Under the unique constraints at most one row has a given nickname. */
  lemma {:induction false} AtMostOneWithNickname(users: seq<User>, nickname: string)
    ensures UniqueUsers(users) ==> |WithNickname(users, nickname)| <= 1
  {
    if |users| > 0 && UniqueUsers(users) {
      UniqueTail(users);
      AtMostOneWithNickname(users[1..], nickname);
    }
  }

  /** `existsByEmail`: `SELECT COUNT(*)` never yields null, so the answer is "count > 0". */
  function ExistsByEmail(users: seq<User>, email: string): (b: bool)
    ensures b <==> exists i :: 0 <= i < |users| && users[i].email == email
  {
    var rows := WithEmail(users, email);
    assert |rows| > 0 ==> rows[0] in users;
    |rows| > 0
  }

  /** `existsByNickname`, likewise. */
  function ExistsByNickname(users: seq<User>, nickname: string): (b: bool)
    ensures b <==> exists i :: 0 <= i < |users| && users[i].nickname == nickname
  {
    var rows := WithNickname(users, nickname);
    assert |rows| > 0 ==> rows[0] in users;
    |rows| > 0
  }

  /** `findByEmail`: `queryForObject` returns the row when exactly one matches and throws
      otherwise; any exception becomes an empty result. */
  function FindByEmail(users: seq<User>, email: string): (r: Option<User>)
    ensures r.Some? ==> r.value in users && r.value.email == email
    ensures UniqueUsers(users) ==> (r.Some? <==> ExistsByEmail(users, email))
  {
    var rows := WithEmail(users, email);
    AtMostOneWithEmail(users, email);
    assert |rows| > 0 ==> rows[0] in rows;
    if |rows| == 1 then Some(rows[0]) else None
  }

  /** `findByNickname`, likewise. */
  function FindByNickname(users: seq<User>, nickname: string): (r: Option<User>)
    ensures r.Some? ==> r.value in users && r.value.nickname == nickname
    ensures UniqueUsers(users) ==> (r.Some? <==> ExistsByNickname(users, nickname))
  {
    var rows := WithNickname(users, nickname);
    AtMostOneWithNickname(users, nickname);
    assert |rows| > 0 ==> rows[0] in rows;
    if |rows| == 1 then Some(rows[0]) else None
  }

  /** A request field is used only when it is neither null nor empty. */
  predicate Present(s: Option<string>)
  {
    s.Some? && s.value != ""
  }

  /** One `, column = 'value'` assignment of the update statement. */
  function Assignment(column: string, value: string): (r: string)
  {
    ", " + column + " = '" + value + "'"
  }

  function NicknameAssignment(nickname: Option<string>): (r: string)
  {
    if Present(nickname) then Assignment("nickname", nickname.value) else []
  }

  function PasswordAssignment(encodedPassword: Option<string>): (r: string)
  {
    if encodedPassword.Some? then Assignment("password", encodedPassword.value) else []
  }

  function ImageAssignment(fileName: Option<string>): (r: string)
  {
    if fileName.Some? then Assignment("profile_image_url", UPLOADS_PREFIX + fileName.value) else []
  }

  /** The assignments `updateUser` appends, in statement order: nickname, then the encoded
      password, then the profile image URL. The nickname counts when it is non-null and
      non-empty; `encodedPassword` is present exactly when the raw password was non-null and
      non-empty, and `fileName` exactly when an image was uploaded and stored. */
  function SetClauses(nickname: Option<string>, encodedPassword: Option<string>, fileName: Option<string>): (r: string)
  {
    NicknameAssignment(nickname) + PasswordAssignment(encodedPassword) + ImageAssignment(fileName)
  }

  /** The `StringBuilder` that `updateUser` fills: the fixed head, the assignments for the
      present fields, the fixed tail. */
  method BuildUpdateSql(nickname: Option<string>, encodedPassword: Option<string>, fileName: Option<string>)
    returns (sql: string)
    ensures sql == UPDATE_HEAD + SetClauses(nickname, encodedPassword, fileName) + UPDATE_TAIL
    ensures sql == UPDATE_HEAD + UPDATE_TAIL <==> !Present(nickname) && encodedPassword.None? && fileName.None?
  {
    var clauses: string := [];
    if nickname.Some? && nickname.value != "" {
      clauses := clauses + Assignment("nickname", nickname.value);
    }
    assert clauses == NicknameAssignment(nickname);
    if encodedPassword.Some? {
      clauses := clauses + Assignment("password", encodedPassword.value);
    }
    assert clauses == NicknameAssignment(nickname) + PasswordAssignment(encodedPassword);
    if fileName.Some? {
      clauses := clauses + Assignment("profile_image_url", UPLOADS_PREFIX + fileName.value);
    }
    assert clauses == SetClauses(nickname, encodedPassword, fileName);
    sql := UPDATE_HEAD + clauses + UPDATE_TAIL;
    assert |sql| == |UPDATE_HEAD| + |clauses| + |UPDATE_TAIL|;
  }

  /** A nickname is set and some user other than `id` already has it: the update would violate
      the unique constraint on `nickname`. */
  predicate NicknameTakenByOther(users: seq<User>, id: int, nickname: Option<string>)
  {
    Present(nickname) && exists i :: 0 <= i < |users| && users[i].nickname == nickname.value && users[i].id != id
  }

  /** The row as the update statement leaves it. */
  function UpdatedUser(u: User, nickname: Option<string>, encodedPassword: Option<string>,
                       fileName: Option<string>): (r: User)
    ensures r.id == u.id && r.email == u.email
    ensures r.nickname == if Present(nickname) then nickname.value else u.nickname
    ensures r.password == if encodedPassword.Some? then encodedPassword.value else u.password
    ensures r.profileImageUrl == if fileName.Some? then Some(UPLOADS_PREFIX + fileName.value) else u.profileImageUrl
    ensures !Present(nickname) && encodedPassword.None? && fileName.None? ==> r == u
  {
    u.(nickname := if Present(nickname) then nickname.value else u.nickname,
       password := if encodedPassword.Some? then encodedPassword.value else u.password,
       profileImageUrl := if fileName.Some? then Some(UPLOADS_PREFIX + fileName.value) else u.profileImageUrl)
  }

  /** `UPDATE ... WHERE id = ?` applied to the table. */
  function UpdateWhereId(users: seq<User>, id: int, nickname: Option<string>, encodedPassword: Option<string>,
                         fileName: Option<string>): (r: seq<User>)
    ensures |r| == |users|
    ensures forall i :: 0 <= i < |users| ==>
              r[i] == if users[i].id == id then UpdatedUser(users[i], nickname, encodedPassword, fileName) else users[i]
    ensures forall i :: 0 <= i < |users| ==> r[i].id == users[i].id && r[i].email == users[i].email
  {
    seq(|users|, i requires 0 <= i < |users| =>
      if users[i].id == id then UpdatedUser(users[i], nickname, encodedPassword, fileName) else users[i])
  }

  /** `DELETE FROM users WHERE id = ?` applied to the table. */
  function DeleteWhereId(users: seq<User>, id: int): (r: seq<User>)
    ensures forall u :: u in r <==> u in users && u.id != id
    ensures |r| <= |users|
  {
    if |users| == 0 then []
    else (if users[0].id == id then [] else [users[0]]) + DeleteWhereId(users[1..], id)
  }

  /** The mail sender, with a record of the (address, code) messages sent. */
  class Mailer {
    var sent: seq<(string, string)>

    constructor ()
      ensures sent == []
    {
      sent := [];
    }

    method SendVerificationCode(to: string, code: string)
      modifies this
      ensures sent == old(sent) + [(to, code)]
    {
      sent := sent + [(to, code)];
    }
  }

  class UserService {
    const db: Database
    const encoder: PasswordEncoder
    const mailer: Mailer

    constructor (db: Database, encoder: PasswordEncoder, mailer: Mailer)
      ensures this.db == db && this.encoder == encoder && this.mailer == mailer
    {
      this.db := db;
      this.encoder := encoder;
      this.mailer := mailer;
    }

    /** `saveUser`: the profile image URL is `/uploads/<stored file>` when an image was
        uploaded and otherwise what the request carried; the stored password is the encoded one.
        A taken email or nickname violates a unique constraint and nothing is stored. */
    method SaveUser(email: string, password: string, nickname: string, profileImageUrl: Option<string>,
                    fileName: Option<string>)
      returns (r: Attempt<User>)
      requires db.Valid()
      modifies db`users, db`nextUserId
      ensures db.Valid()
      ensures ExistsByEmail(old(db.users), email) || ExistsByNickname(old(db.users), nickname) ==>
                r == Threw(RuntimeException(DUPLICATE_KEY)) && unchanged(db)
      ensures !ExistsByEmail(old(db.users), email) && !ExistsByNickname(old(db.users), nickname) ==>
                && r.Returned?
                && r.value == User(old(db.nextUserId), email, encoder.encode(password), nickname,
                                   if fileName.Some? then Some(UPLOADS_PREFIX + fileName.value) else profileImageUrl)
                && db.users == old(db.users) + [r.value]
                && db.nextUserId == old(db.nextUserId) + 1
                && FindByEmail(db.users, email) == Some(r.value)
    {
      var profile := profileImageUrl;
      if fileName.Some? {
        profile := Some(UPLOADS_PREFIX + fileName.value);
      }
      if ExistsByEmail(db.users, email) || ExistsByNickname(db.users, nickname) {
        return Threw(RuntimeException(DUPLICATE_KEY));
      }
      var u := User(db.nextUserId, email, encoder.encode(password), nickname, profile);
      InsertKeepsUnique(db.users, u);
      db.users := db.users + [u];
      db.nextUserId := db.nextUserId + 1;
      r := Returned(u);
    }

    /** `sendVerificationCode`: refused (false, nothing stored, nothing sent) when the email is
        already registered; otherwise the email's pending verification is replaced by a fresh,
        unverified one, and that same code is mailed to the address. */
    method SendVerificationCode(email: string, draws: seq<int>) returns (r: bool)
      requires db.Valid()
      requires VerificationCodeGenerator.ValidDraws(draws)
      modifies db`verifications, mailer
      ensures db.Valid()
      ensures r <==> !ExistsByEmail(db.users, email)
      ensures !r ==> db.verifications == old(db.verifications) && mailer.sent == old(mailer.sent)
      ensures r ==>
                && email in db.verifications
                && db.verifications == old(db.verifications)[email := db.verifications[email]]
                && !db.verifications[email].verified
                && VerificationCodeGenerator.IsCode(db.verifications[email].code)
                && (forall i :: 0 <= i < VerificationCodeGenerator.CODE_LENGTH ==>
                      db.verifications[email].code[i] == VerificationCodeGenerator.CHARACTERS[draws[i]])
                && mailer.sent == old(mailer.sent) + [(email, db.verifications[email].code)]
    {
      if ExistsByEmail(db.users, email) {
        return false;
      }
      if email in db.verifications {
        db.verifications := db.verifications - {email};
      }
      var code := VerificationCodeGenerator.GenerateCode(draws);
      db.verifications := db.verifications[email := EmailVerification(email, code, false)];
      mailer.SendVerificationCode(email, code);
      r := true;
    }

    /** `verifyEmail`: true exactly when the email has a verification row with this code, which
        is then marked verified; otherwise nothing changes. */
    method VerifyEmail(email: string, code: string) returns (r: bool)
      requires db.Valid()
      modifies db`verifications
      ensures db.Valid()
      ensures r <==> email in old(db.verifications) && old(db.verifications)[email].code == code
      ensures r ==> db.verifications == old(db.verifications)[email := old(db.verifications)[email].(verified := true)]
      ensures !r ==> db.verifications == old(db.verifications)
    {
      if email in db.verifications && db.verifications[email].code == code {
        db.verifications := db.verifications[email := db.verifications[email].(verified := true)];
        return true;
      }
      return false;
    }

    /** `updateUser`: the statement sets the nickname and the encoded password when they are
        present, and the profile image URL when an image was uploaded; true exactly when a row
        with this id exists. A nickname taken by another user violates the unique constraint. */
    method UpdateUser(userId: int, nickname: Option<string>, password: Option<string>, fileName: Option<string>)
      returns (r: Attempt<bool>, sql: string)
      requires db.Valid()
      modifies db`users
      ensures db.Valid()
      ensures var encoded := if Present(password) then Some(encoder.encode(password.value)) else None;
              sql == UPDATE_HEAD + SetClauses(nickname, encoded, fileName) + UPDATE_TAIL
      ensures r.Threw? <==>
                FindUserById(old(db.users), userId).Some? && NicknameTakenByOther(old(db.users), userId, nickname)
      ensures r.Threw? ==> r == Threw(RuntimeException(DUPLICATE_KEY)) && unchanged(db)
      ensures r.Returned? ==>
                var encoded := if Present(password) then Some(encoder.encode(password.value)) else None;
                && (r.value <==> FindUserById(old(db.users), userId).Some?)
                && db.users == UpdateWhereId(old(db.users), userId, nickname, encoded, fileName)
    {
      var encoded: Option<string> := None;
      if password.Some? && password.value != "" {
        encoded := Some(encoder.encode(password.value));
      }
      sql := BuildUpdateSql(nickname, encoded, fileName);
      var target := FindUserById(db.users, userId);
      if target.None? {
        UpdateMissingIdIsNoop(db.users, userId, nickname, encoded, fileName);
        return Returned(false), sql;
      }
      if NicknameTakenByOther(db.users, userId, nickname) {
        return Threw(RuntimeException(DUPLICATE_KEY)), sql;
      }
      UpdatePreservesUnique(db.users, userId, nickname, encoded, fileName);
      db.users := UpdateWhereId(db.users, userId, nickname, encoded, fileName);
      r := Returned(true);
    }

    /** `deleteUser`: true exactly when a row with this id existed; that row is gone. */
    method DeleteUser(userId: int) returns (r: bool)
      requires db.Valid()
      modifies db`users
      ensures db.Valid()
      ensures r <==> FindUserById(old(db.users), userId).Some?
      ensures db.users == DeleteWhereId(old(db.users), userId)
    {
      r := FindUserById(db.users, userId).Some?;
      ghost var before := db.users;
      db.users := DeleteWhereId(db.users, userId);
      DeletePreservesUnique(before, userId);
    }
  }

  /** Deleting rows keeps the unique constraints and the id bound. */
  lemma {:induction false} DeletePreservesUnique(users: seq<User>, id: int)
    requires UniqueUsers(users)
    ensures UniqueUsers(DeleteWhereId(users, id))
  {
    if |users| > 0 {
      var tail := users[1..];
      assert UniqueUsers(tail) by {
        forall i, j | 0 <= i < j < |tail| ensures tail[i].id != tail[j].id {
          assert tail[i] == users[i + 1] && tail[j] == users[j + 1];
        }
      }
      DeletePreservesUnique(tail, id);
      var rest := DeleteWhereId(tail, id);
      if users[0].id != id {
        var r := [users[0]] + rest;
        forall j | 0 < j < |r|
          ensures r[0].id != r[j].id && r[0].email != r[j].email && r[0].nickname != r[j].nickname
        {
          assert r[j] in tail;
          var k :| 0 <= k < |tail| && tail[k] == r[j];
          assert tail[k] == users[k + 1];
        }
      }
    }
  }

  /** An update of an id no row has leaves the table as it was. */
  lemma UpdateMissingIdIsNoop(users: seq<User>, id: int, nickname: Option<string>,
                              encodedPassword: Option<string>, fileName: Option<string>)
    requires FindUserById(users, id).None?
    ensures UpdateWhereId(users, id, nickname, encodedPassword, fileName) == users
  {
    var r := UpdateWhereId(users, id, nickname, encodedPassword, fileName);
    forall i | 0 <= i < |users| ensures r[i] == users[i] {
      assert users[i].id != id;
    }
  }

  /** An update that does not take another user's nickname keeps the unique constraints. */
  lemma UpdatePreservesUnique(users: seq<User>, id: int, nickname: Option<string>,
                              encodedPassword: Option<string>, fileName: Option<string>)
    requires UniqueUsers(users)
    requires !NicknameTakenByOther(users, id, nickname)
    ensures UniqueUsers(UpdateWhereId(users, id, nickname, encodedPassword, fileName))
    ensures forall i :: 0 <= i < |users| ==> UpdateWhereId(users, id, nickname, encodedPassword, fileName)[i].id == users[i].id
    ensures forall next :: UsersKeyed(users, next) ==> UsersKeyed(UpdateWhereId(users, id, nickname, encodedPassword, fileName), next)
  {
    var r := UpdateWhereId(users, id, nickname, encodedPassword, fileName);
    forall i, j | 0 <= i < j < |r|
      ensures r[i].id != r[j].id && r[i].email != r[j].email && r[i].nickname != r[j].nickname
    {
      assert users[i].id != users[j].id;
    }
  }

  /** Inserting a user whose email and nickname are free and whose id is new keeps the unique
      constraints, and the email then finds exactly that user. */
  lemma InsertKeepsUnique(users: seq<User>, u: User)
    requires UniqueUsers(users)
    requires !ExistsByEmail(users, u.email) && !ExistsByNickname(users, u.nickname)
    requires forall i :: 0 <= i < |users| ==> users[i].id < u.id
    ensures UniqueUsers(users + [u])
    ensures FindByEmail(users + [u], u.email) == Some(u)
  {
    var all := users + [u];
    assert UniqueUsers(all) by {
      forall i, j | 0 <= i < j < |all|
        ensures all[i].id != all[j].id && all[i].email != all[j].email && all[i].nickname != all[j].nickname
      {
        if j == |users| {
          assert all[i] == users[i];
        } else {
          assert all[i] == users[i] && all[j] == users[j];
        }
      }
    }
    assert u in WithEmail(all, u.email);
    AtMostOneWithEmail(all, u.email);
  }
}

=== FILE: verification_code.dfy ===
/** `VerificationCodeGenerator`: six characters drawn from the upper-case letters and digits.
    The random source is an input: `draws` holds the indices `SecureRandom.nextInt(36)` returns,
    in the order the loop asks for them. */
module VerificationCodeGenerator {

  const CHARACTERS: string := "ABCDEFGHIJKLMNOPQRSTUVWXYZ0123456789"
  const CODE_LENGTH: nat := 6

  predicate IsCodeChar(c: char)
  {
    'A' <= c <= 'Z' || '0' <= c <= '9'
  }

  /** A well-formed verification code. */
  predicate IsCode(s: string)
  {
    |s| == CODE_LENGTH && forall i :: 0 <= i < |s| ==> IsCodeChar(s[i])
  }

  /** Every character of the alphabet is a code character, and there are 36 of them. */
  lemma AlphabetIsCodeChars()
    ensures |CHARACTERS| == 36
    ensures forall k :: 0 <= k < |CHARACTERS| ==> IsCodeChar(CHARACTERS[k])
  {
  }

  /** Draws `SecureRandom.nextInt(36)` can return: exactly one per character, each in [0, 36). */
  predicate ValidDraws(draws: seq<int>)
  {
    |draws| == CODE_LENGTH && forall i :: 0 <= i < |draws| ==> 0 <= draws[i] < |CHARACTERS|
  }

  /** `generateCode`: character i of the code is the alphabet character at the i-th draw. */
  method GenerateCode(draws: seq<int>) returns (code: string)
    requires ValidDraws(draws)
    ensures |code| == CODE_LENGTH
    ensures forall i :: 0 <= i < CODE_LENGTH ==> code[i] == CHARACTERS[draws[i]]
    ensures IsCode(code)
  {
    AlphabetIsCodeChars();
    code := "";
    for i := 0 to CODE_LENGTH
      invariant |code| == i
      invariant forall j :: 0 <= j < i ==> code[j] == CHARACTERS[draws[j]]
    {
      code := code + [CHARACTERS[draws[i]]];
    }
  }
}
